=== FILE: README.md ===
# Canvas editing core of the photo editor, in Dafny

This project models the client-side editing core of a browser photo editor. The editor shows an infinite canvas of placed images and videos. It offers:

- click and rubber-band selection;
- dragging, including moving a whole selection rigidly;
- resizing through a transformer with a 5 px floor;
- layer order: to the front, to the back, one step forward and one step backward;
- delete, duplicate and crop;
- a linear undo/redo history;
- wheel, pinch and keyboard zoom clamped to the scale range [0.1, 5], and panning;
- keyboard shortcuts for all of the above;
- image-to-image generation: each selected image is uploaded, capped at 4096 px a side, and a placeholder is placed beside it;
- a label showing the pixel size of a single selected image.

State is immutable. Every React state update becomes a pure function from the old state to the new one. Sizes and coordinates are `real`; `Math.round` and the JavaScript `||` defaults are written out. The layer moves that the source writes as loops are methods with loop invariants.

Modules, one file each:

- `CanvasTypes` holds the records of `src/types/canvas.ts` and JavaScript helpers.
- `Seqs` holds generic sequence lemmas.
- `Editor` holds the page state and id lookups.
- `History`, `Viewport`, `Selection`, `Layering`, `Edits` and `Keyboard` cover `src/app/page.tsx`.
- `Generation` covers `src/lib/handlers/generation-handler.ts`.
- `CanvasImage` covers `src/components/canvas/CanvasImage.tsx`.
- `Dimensions` covers `src/components/canvas/DimensionDisplay.tsx`.

The code and its intent disagree in three places. The model follows the code in each and records them under "## Findings". Every editor-level edit (delete, duplicate, crop end and the layer moves) saves its checkpoint before changing the canvas, as the code does. `History.Commit` is the corrected save, and its properties hold for any edited canvas.

## Model

| member | source | states |
|---|---|---|
| CanvasTypes.OrElse | src/lib/handlers/generation-handler.ts:192-195 | `v \|\| d` on an optional number: undefined and 0 both fall back to the default, anything else is kept |
| CanvasTypes.Round | src/components/canvas/DimensionDisplay.tsx:56-57 | `Math.round` returns the integer within half a unit of its argument, halves rounding up |
| Editor.Find | src/app/page.tsx:1754-1756 | `find` by id returns None exactly when no image has the id, otherwise the first image of the list with that id |
| History.SliceTo | src/app/page.tsx:840 | `slice(0, end)` with JavaScript's negative and past-the-end ends |
| History.Restore | src/app/page.tsx:850-853 | restoring an entry sets images and selection, and treats a missing video list as empty |
| History.SaveToHistory | src/app/page.tsx:834-844 | saving keeps the entries up to the index, appends a snapshot of the canvas and points the index at it |
| History.Undo | src/app/page.tsx:847-855 | undo is a no-op at index 0; otherwise it restores the previous entry and steps the index back, keeping the history |
| History.Redo | src/app/page.tsx:858-866 | redo is a no-op at the last entry; otherwise it restores the next entry and steps the index on |
| History.Mount | src/app/page.tsx:869-873 | on an empty history the mount effect saves exactly one entry, the current canvas, and points at it; it never changes the canvas and otherwise changes nothing |
| History.MountedIsSynced | src/app/page.tsx:869-873 | after mounting, the canvas equals the entry the index points at |
| History.RedoAfterUndo | src/app/page.tsx:847-866 | redo after undo returns to the entry the index pointed at, and to the same editor when in sync |
| History.UndoAfterRedo | src/app/page.tsx:847-866 | undo after redo returns to the same entry |
| History.NothingToRedoAfterSave | src/app/page.tsx:834-866 | right after a save, redo does nothing |
| History.UndoRedoKeepSynced | src/app/page.tsx:847-866 | undo and redo preserve the canvas being the entry at the index |
| History.CheckpointThenApply | src/app/page.tsx:1573-1577 | an edit as written: the pre-edit state is saved on top of the kept entries, then the canvas changes and nothing else does |
| History.UndoRevertsCheckpoint | src/app/page.tsx:1573-1577 | from a page in sync with its history, one undo after a checkpointed edit shows the canvas before the edit |
| History.RedoAfterUndoLosesEdit | src/app/page.tsx:1573-1577 | redo after that undo shows the pre-edit canvas again, so an edit that changed the canvas cannot be replayed |
| History.UndoSkipsIntermediateState | src/app/page.tsx:1573-1577 | with pre-edit checkpoints, one undo after two edits goes back past the first edit |
| History.Commit | src/app/page.tsx:834-844 | an edit that saves the post-edit state keeps the canvas in sync with the history and keeps the earlier entries |
| History.UndoRevertsCommit | src/app/page.tsx:834-866 | undo reverts a committed edit exactly, and redo replays it |
| History.UndoStepsBackOneEdit | src/app/page.tsx:847-855 | after two committed edits, one undo shows the state after the first |
| Viewport.ScreenToCanvas | src/app/page.tsx:1441-1444 | the canvas point under a screen point maps back onto that screen point |
| Viewport.CanvasScreenRoundTrip | src/app/page.tsx:1441-1444 | mapping a canvas point to the screen and back gives the point |
| Viewport.ClampScale | src/app/page.tsx:1243-1244 | the clamp always lands in [0.1, 5], is the identity inside it and saturates at each end |
| Viewport.ZoomAbout | src/app/page.tsx:1244-1249 | zooming about an anchor sets the scale and keeps the canvas point under the anchor on the anchor |
| Viewport.LoopCount | src/app/page.tsx:1236-1241 | a `for` loop bounded by a real runs the least whole number of times not below the bound, and never for a bound of at most 0 |
| Viewport.Repeat | src/app/page.tsx:1234-1241 | repeated 1.01 steps keep the scale positive, never lowering it when zooming in nor raising it when zooming out |
| Viewport.WheelScale | src/app/page.tsx:1233-1244 | the pinch scale is in [0.1, 5]; from an in-range scale, a positive deltaY never zooms in and a non-positive one never zooms out |
| Viewport.PanBy | src/app/page.tsx:1257-1261 | panning keeps the scale and moves every drawn canvas point by the offset |
| Viewport.HandleWheel | src/app/page.tsx:1215-1262 | a ctrl-wheel without a pointer does nothing; with one it zooms into range keeping the pointer's canvas point; a plain wheel pans, with shift turning vertical scrolling horizontal |
| Viewport.KeyZoomIn | src/app/page.tsx:2308-2324 | "+" sets the scale to min(5, 1.2 × scale), never zooms out from an in-range scale, and keeps the canvas centre fixed |
| Viewport.KeyZoomOut | src/app/page.tsx:2326-2342 | "-" sets the scale to max(0.1, scale / 1.2), never zooms in from an in-range scale, and keeps the canvas centre fixed |
| Viewport.ResetZoom | src/app/page.tsx:2344-2347 | the reset viewport is in range and maps every screen point to the same canvas point |
| Viewport.ZoomAboutKeepsAnchorPoint | src/app/page.tsx:1244-1249 | after a zoom about an anchor, the canvas point under the anchor is unchanged |
| Viewport.KeyZoomOutUndoesZoomIn | src/app/page.tsx:2308-2342 | a keyboard zoom in that the cap does not cut is undone exactly by a keyboard zoom out |
| Viewport.PanShiftsContent | src/app/page.tsx:1464-1473 | after panning, the canvas point under a screen point is the one that was under the point moved back by the offset |
| Selection.HandleSelect | src/app/page.tsx:1400-1408 | without a modifier the id is selected alone; with one the id's membership flips and the other ids stay in order; a newly added id is added once, at the end |
| Selection.ToggleTwiceRestores | src/app/page.tsx:1400-1408 | toggling an unselected id twice gives back the original selection |
| Selection.SelectAll | src/app/page.tsx:2250-2253 | select-all selects exactly the ids of the images, one per image, in array order |
| Selection.NormalizeBox | src/app/page.tsx:1507-1512 | the normalised box has non-negative size and spans exactly the two corners' coordinates |
| Selection.IntersectsIffCommonPoint | src/app/page.tsx:1518-1523 | for boxes of non-negative size, the overlap test holds exactly when the closed boxes share a point |
| Selection.Intersects | src/app/page.tsx:1518-1523 | the overlap test: the item is not entirely left of, right of, above or below the box |
| Selection.BoxHits | src/app/page.tsx:1514-1539 | an id is hit exactly when an image or a video with that id overlaps the box; the hit image ids come first in array order, then the hit video ids in array order |
| Selection.MouseDown | src/app/page.tsx:1411-1458 | the middle button starts panning; a click outside the crop overlay leaves crop mode; a left click on empty canvas starts a box at the pointer's canvas point and clears the selection; each branch changes only those fields, and any other press changes nothing |
| Selection.MouseMove | src/app/page.tsx:1460-1495 | while panning the viewport follows the pointer's movement and only it and the last pan position change; while selecting only the box's free corner moves to the pointer; otherwise nothing changes |
| Selection.MouseUp | src/app/page.tsx:1497-1551 | release stops panning or hides the box; a box wider or taller than 5 with hits replaces the selection by the hits, and otherwise the selection is kept; nothing else in the page changes |
| Selection.ClickOnEmptyClearsSelection | src/app/page.tsx:1411-1551 | a click on empty canvas without a drag leaves nothing selected |
| Selection.RubberBandSelectsOverlapped | src/app/page.tsx:1411-1551 | press, move and release select exactly the box hits, images then videos in array order, when the box is wider or taller than 5, and nothing otherwise |
| Layering.Picked | src/app/page.tsx:1756-1758 | every picked image is an image of the list carrying a selected id |
| Layering.PickedIds | src/app/page.tsx:1756-1758 | the picked images' ids are exactly the selected ids that name an image, in selection order |
| Layering.PickedCount | src/app/page.tsx:1756-1758 | with distinct ids, each selected image is picked exactly once and no other image is |
| Layering.SendToFront | src/app/page.tsx:1750-1768 | an empty selection changes nothing; otherwise the unselected images keep their order below the selected images, which come in selection order |
| Layering.SendToBack | src/app/page.tsx:1770-1788 | an empty selection changes nothing; otherwise the selected images, in selection order, come below the unselected images, which keep their order |
| Layering.SendToFrontBackPermute | src/app/page.tsx:1750-1788 | with distinct ids, both moves only reorder the images |
| Layering.SendToFrontBackIdempotent | src/app/page.tsx:1750-1788 | doing either move twice is the same as doing it once |
| Layering.BringForward | src/app/page.tsx:1790-1810 | the images are a permutation of the old ones; selected and unselected images each keep their relative order; a selected image directly below an unselected one rises exactly one place; a selected image rises at most one place and an unselected one never rises |
| Layering.SendBackward | src/app/page.tsx:1812-1832 | the mirror of BringForward: a selected image directly above an unselected one sinks exactly one place; a selected image sinks at most one place and an unselected one never sinks |
| Layering.ApplyLayerMove | src/app/page.tsx:1750-1832 | an empty selection changes nothing; otherwise the pre-move canvas is checkpointed and the images are reordered: to the front or back exactly as SendToFront and SendToBack, one step with the progress and order guarantees of BringForward and SendBackward; selection and videos are kept |
| Edits.DeleteSelected | src/app/page.tsx:1573-1579 | deleting keeps exactly the images and videos whose ids are not selected, each as many times as before, and clears the selection |
| Edits.DeleteNothingSelected | src/app/page.tsx:1573-1579 | with nothing selected, delete leaves the canvas as it is |
| Edits.CopyImage | src/app/page.tsx:1586-1591 | a copied image has the new id, sits 20 px right and down, and is otherwise the original |
| Edits.CopyVideo | src/app/page.tsx:1595-1603 | a copied video is placed like an image copy and restarts, paused, at time 0 |
| Edits.DuplicateSelected | src/app/page.tsx:1581-1616 | the old items stay first; one copy per selected image and video is appended in canvas order; the copies alone are selected |
| Edits.DeleteUndoesDuplicate | src/app/page.tsx:1573-1616 | deleting right after duplicating with fresh ids leaves the original canvas with nothing selected |
| Edits.CropFractions | src/app/page.tsx:2783-2788 | a present non-zero fraction is used as is; a missing or zero offset is 0 and a missing or zero extent is 1 |
| Edits.CropImage | src/app/page.tsx:2799-2817 | a committed crop takes the new source, moves to x + cropX·w, y + cropY·h with size cropWidth·w by cropHeight·h, clears the crop fields and changes nothing else |
| Edits.CommitCrop | src/app/page.tsx:2780-2827 | only images with the cropped id change, and nothing changes when the image is gone or the crop failed |
| Edits.CropStaysInside | src/app/page.tsx:2808-2814 | a crop within the source keeps the image inside its old bounds |
| Edits.UncroppedCommitKeepsBounds | src/app/page.tsx:2808-2814 | committing an image without a crop keeps its position and size |
| Edits.HandleDelete | src/app/page.tsx:1573-1579 | delete as written: the pre-delete canvas is checkpointed, then exactly the unselected items are kept and nothing is selected; the history up to the old index is kept and nothing else in the page changes |
| Edits.HandleDuplicate | src/app/page.tsx:1581-1616 | duplicate as written: the pre-duplicate canvas is checkpointed, then the copies are appended after the old items and selected; the history up to the old index is kept and nothing else in the page changes |
| Edits.UndoRevertsDeleteAndDuplicate | src/app/page.tsx:1573-1616 | from a page in sync with its history, one undo reverts a delete or a duplicate, and a redo after it shows the canvas before the edit again |
| Edits.CropEnd | src/app/page.tsx:2780-2832 | ending a crop leaves crop mode, replaces the cropped image as CommitCrop does, keeps videos and selection, and checkpoints the canvas as it was before the commit on the history kept up to the old index; nothing else in the page changes |
| Keyboard.Decode | src/app/page.tsx:2233-2348 | inside a text field only undo, redo, leaving crop mode and zoom reset can fire; Mod-Z undoes and Mod-Shift-Z or Mod-Y redo; outside a text field Mod-A selects all, Delete or Backspace with a selection deletes, Mod-D with a selection duplicates, and Mod-Enter with an idle generator and a non-blank prompt runs; delete, duplicate and the layer moves never fire without a selection, nor a run while generating or with a blank prompt; Escape while cropping leaves crop mode everywhere, and crop mode is left only then |
| Keyboard.LayerKeys | src/app/page.tsx:2283-2301 | with a selection, "]" raises one step or to the front with Mod, and "[" lowers one step or to the back with Mod |
| Keyboard.ZoomKeys | src/app/page.tsx:2308-2347 | "+" or "=" zooms in and "-" zooms out outside text fields; Mod-0 resets the zoom everywhere |
| Generation.RelDiff | src/lib/handlers/generation-handler.ts:97 | the relative difference is non-negative and 0 exactly at the candidate's ratio |
| Generation.BestIndex | src/lib/handlers/generation-handler.ts:95-99 | the loop settles on a candidate of least difference, strictly better than every earlier one |
| Generation.ToAspectRatio | src/lib/handlers/generation-handler.ts:80-102 | a zero side gives no label; a label is the earliest nearest candidate within 10%; no label means no candidate is that near |
| Generation.CandidateValuesDistinct | src/lib/handlers/generation-handler.ts:83-94 | the ten candidate ratios are pairwise different |
| Generation.ExactRatioSelectsItsLabel | src/lib/handlers/generation-handler.ts:80-102 | a size whose ratio is a candidate's gets that candidate's label |
| Generation.AspectRatioScaleInvariant | src/lib/handlers/generation-handler.ts:80-102 | scaling both sides by the same non-zero factor keeps the label |
| Generation.RequestedAspect | src/lib/handlers/generation-handler.ts:137-140 | a fixed ratio setting is sent as is; no setting or "auto" sends the ratio inferred from the size |
| Generation.GenerateImage | src/lib/handlers/generation-handler.ts:104-143 | one placeholder is appended with the given place, size (300 by default) and group, and its request is recorded under its id with the others untouched |
| Generation.EffectiveSize | src/lib/handlers/generation-handler.ts:210-217 | the effective size is the crop extent times the source size in both branches |
| Generation.UploadScale | src/lib/handlers/generation-handler.ts:219-222 | the scale is in (0, 1], is 1 up to 4096 px, and brings the longer side to exactly 4096 beyond |
| Generation.UploadSize | src/lib/handlers/generation-handler.ts:219-226 | up to 4096 px a side the upload is the rounded effective size |
| Generation.UploadSizeCapped | src/lib/handlers/generation-handler.ts:219-226 | the upload never exceeds 4096 on a side, and its longer side is exactly 4096 when capped |
| Generation.Processed | src/lib/handlers/generation-handler.ts:189-300 | processing the images never touches the generating flag |
| Generation.Step | src/lib/handlers/generation-handler.ts:189-289 | a failed image changes nothing; a success appends its placeholder 20 px right of the source, level with it and of its size, and records its request |
| Generation.Notice | src/lib/handlers/generation-handler.ts:61-73 | every failure except an empty URL or a failed `fetch` shows exactly one notice, and the rate-limit notice exactly for a rate-limited upload |
| Generation.SuccessCount | src/lib/handlers/generation-handler.ts:186-289 | at most one success is counted per image |
| Generation.Placeholders | src/lib/handlers/generation-handler.ts:278-289 | one placeholder per successful upload |
| Generation.ProcessedImages | src/lib/handlers/generation-handler.ts:189-300 | processing appends exactly the placeholders, in canvas order of their source images, to the images |
| Generation.ProcessedRequestIds | src/lib/handlers/generation-handler.ts:131-142 | a request is recorded under an id exactly when it was recorded before or is a success's placeholder id |
| Generation.ProcessedRequests | src/lib/handlers/generation-handler.ts:131-142 | with distinct placeholder ids, each success's request carries its upload URL, the prompt and the ratio requested for its image |
| Generation.PlaceholderBesideSource | src/lib/handlers/generation-handler.ts:278-288 | every placeholder sits 20 px right of a successfully uploaded source image, level with it and of its size |
| Generation.ProcessAll | src/lib/handlers/generation-handler.ts:186-300 | the loop over the selected images ends in the state, notices and success count of processing them one by one in order, and counts every image once as a success or a failure |
| Generation.HandleRun | src/lib/handlers/generation-handler.ts:145-304 | an empty prompt only shows a notice; no selected image shows a notice and stops; otherwise every image is either a success or a failure, one placeholder and request per success, the matching notices, and the flag is off at the end |
| CanvasImage.MoveTo | src/app/page.tsx:2612-2620 | `onChange` moves every image with the id to the point and leaves the others alone |
| CanvasImage.StartDrag | src/app/page.tsx:2624-2646 | dragging an unselected image selects it alone; the start of exactly the selected images present is recorded |
| CanvasImage.DragMove | src/components/canvas/CanvasImage.tsx:114-153 | only positions change; with several selected, every selected image with a recorded start moves by the dragged image's displacement; otherwise only the dragged image moves |
| CanvasImage.DragBackToStartRestores | src/components/canvas/CanvasImage.tsx:114-153 | dragging back to the start restores every image |
| CanvasImage.TransformEnd | src/components/canvas/CanvasImage.tsx:157-175 | a resize takes the scaled size when it is at least 5 and exactly 5 otherwise, takes over position and rotation, and changes nothing else |
| CanvasImage.BoundBox | src/components/canvas/CanvasImage.tsx:183-188 | a proposed box narrower or lower than 5 is refused and the old box kept; any other is accepted |
| CanvasImage.ResizeKeepsMinimum | src/components/canvas/CanvasImage.tsx:183-188 | a resize starting at least 5 px each way stays so, ending at the start or at one of the proposals |
| CanvasImage.Resize | src/components/canvas/CanvasImage.tsx:183-188 | successive transformer proposals, each checked against the box accepted so far |
| CanvasImage.AtMostOneTransformer | src/components/canvas/CanvasImage.tsx:49-59 | with distinct ids, at most one image shows the transformer |
| CanvasImage.TransformerShown | src/components/canvas/CanvasImage.tsx:49-59 | the transformer is attached to an image exactly when it is selected and the selection has one id |
| CanvasImage.CropRect | src/components/canvas/CanvasImage.tsx:72-81 | a displayed crop exists exactly when the image has a crop offset and is not being cropped, and is the crop fractions scaled to source pixels |
| CanvasImage.CropRectInsideSource | src/components/canvas/CanvasImage.tsx:72-81 | fractions within the source give a displayed crop within the source's pixels |
| CanvasImage.DraggableDecidedByLastEvent | src/components/canvas/CanvasImage.tsx:89-104 | the image can be dragged unless the last mouse event was a press of another button than the left one |
| CanvasImage.DraggableAfter | src/components/canvas/CanvasImage.tsx:89-104 | a press allows dragging only with the left button, and a release allows it again |
| Dimensions.SingleSelectionShows | src/components/canvas/DimensionDisplay.tsx:19-21 | selecting one existing image alone shows its label, for that image |
| Dimensions.TwoSelectedHide | src/components/canvas/DimensionDisplay.tsx:19 | two different selected images hide the label |
| Dimensions.ShowsDimensions | src/components/canvas/DimensionDisplay.tsx:19 | the label is rendered exactly for a selection of one image |
| Dimensions.ApiDimensions | src/components/canvas/DimensionDisplay.tsx:36-68 | a failed load shows the rounded displayed size, not cropped; otherwise the rounded effective size, cropped exactly when a crop extent is not 1 |
| Dimensions.UncroppedShowsSourceSize | src/components/canvas/DimensionDisplay.tsx:48-59 | an uncropped image shows its source size, not cropped |
| Dimensions.ApiDimensionsMatchUpload | src/components/canvas/DimensionDisplay.tsx:48-59 | up to 4096 px a side the label is the uploaded size |
| Dimensions.ApiDimensionsOverstateLargeUpload | src/components/canvas/DimensionDisplay.tsx:28-35 | an 8000 x 6000 source is labelled 8000 x 6000 while 4096 x 3072 is uploaded |
| Dimensions.CappedApiDimensions | src/components/canvas/DimensionDisplay.tsx:28-59 | the corrected label agrees with the original on failed loads, on the cropped flag and up to 4096 px |
| Dimensions.CappedApiDimensionsMatchUpload | src/components/canvas/DimensionDisplay.tsx:28-59 | the corrected label always equals the uploaded size and never exceeds 4096 on a side |

## Left out

- Rendering and Konva nodes are left out: this is presentation, not state.
- Image loading, canvas drawing, blob and data-URL conversion, uploads, the network and the generation stream are left out. These are I/O. Their results enter as parameters: the natural size as an `Option<Size>`, each upload as an `UploadOutcome`, the cropped source as an `Option<string>`.
- Ids drawn from `Date.now()` and `Math.random()` are parameters. Properties that need distinct ids require them, because the source does not guarantee them.
- Toasts are modelled only as the list of notices a run shows, including the rate-limit and upload-failure toasts raised inside `uploadImageDirect`. Their text is left out. A failing `fetch(dataUrl)` at generation-handler.ts 35-36 happens outside that function's `try`, so it fails without a notice. The model treats it like an empty URL (`Uploaded("")`).
- Generation.HandleRun: an image whose `onload` never fires leaves the source's loop waiting forever. The model treats every load as finishing, and a failure as a processing failure.
- Generation.HandleRun: `isGenerating` is only set to true and then false again. The intermediate value seen by a concurrent render is not modelled.
- Keyboard.Decode: `prompt.trim()` enters as a boolean (`promptBlank`), because JavaScript's whitespace set is not modelled. `e.preventDefault()` is left out.
- Touch handlers, pinch by touch and the context-menu actions of the page are left out. So are the viewport persisted in storage and the other page handlers (isolate, combine, upload, video and storage effects). They are not part of the modelled core.
- Viewport: a scale of 0 would divide by zero in the source. The model requires a non-zero scale wherever it divides, which the clamp keeps true for every reachable viewport.
- Floating point is modelled as exact reals. Rounding error, `NaN` and infinities are left out.
- The crop overlay's `onCropChange` and the crop-fraction editing inside it are left out. The model starts from whatever fractions the image carries.
- Edits.CropEnd: the source calls `saveToHistory` after an `await`, from a closure captured before the commit, so it records the pre-commit state. The model gives that outcome directly. React's closure and render timing is not modelled.
- CanvasImage.DragMove: the 16 ms throttle and the history save in `onDragEnd` (page.tsx 2647-2651) are left out. The model gives the state after each move that is delivered.
- CanvasImage.TransformEnd: the `onDragEnd` call that follows it (a history save) is left out, as above.
- Layering.ApplyLayerMove: the multiset equality for to-front and to-back is stated only for distinct image ids and a duplicate-free selection. With repeated ids the source's `find` can pick one image twice and drop another.

## Findings

| source | as written | input that shows it | evidently intended | confidence | as-written member | corrected member |
|---|---|---|---|---|---|---|
| src/app/page.tsx:1573-1577 | every edit calls `saveToHistory()` before changing the state, while `undo` restores the entry before the index | from S0 after mount, edits to S1 and then S2; one undo shows S0 | each undo steps back exactly one edit | high, not executed | History.UndoSkipsIntermediateState | History.UndoStepsBackOneEdit |
| src/app/page.tsx:1573-1577 | the checkpoint taken before an edit is the pre-edit state, and the edited state itself is never saved | from a page in sync at S0, delete to S1, undo and redo: S0 is shown, not S1 | redo replays the undone edit | high, not executed | History.RedoAfterUndoLosesEdit | History.UndoRevertsCommit |
| src/components/canvas/DimensionDisplay.tsx:28-59 | the label is documented as the dimensions sent to generation, but it shows the uncapped rounded effective size | an uncropped 8000 x 6000 source shows 8000 x 6000 while 4096 x 3072 is uploaded | the label shows the capped upload size | medium, not executed | Dimensions.ApiDimensionsOverstateLargeUpload | Dimensions.CappedApiDimensionsMatchUpload |

=== FILE: canvas_image.dfy ===
/** Interaction with one image on the canvas (src/components/canvas/CanvasImage.tsx
    and the callbacks src/app/page.tsx wires into it): dragging one image or
    a whole selection, resizing through the transformer with its 5 px
    floor, which image shows the transformer, the displayed crop, and which
    mouse button may drag. */
module CanvasImage {
  import opened CanvasTypes
  import opened Seqs
  import opened Editor
  import Edits

  /** `onChange({x, y})` as the page wires it: every image carrying `id`
      moves to `p`. */
  function MoveTo(images: seq<PlacedImage>, id: Id, p: Point): (r: seq<PlacedImage>)
    ensures |r| == |images|
    ensures forall k :: 0 <= k < |r| && images[k].id == id ==> r[k] == images[k].(x := p.x, y := p.y)
    ensures forall k :: 0 <= k < |r| && images[k].id != id ==> r[k] == images[k]
  {
    seq(|images|, k requires 0 <= k < |images| =>
      if images[k].id == id then images[k].(x := p.x, y := p.y) else images[k])
  }

  /** What the page records when a drag starts: the selection the drag
      moves and the start position of each of its images. */
  datatype DragStart = DragStart(selection: seq<Id>, positions: map<Id, Point>)

  function Position(img: PlacedImage): Point {
    Point(img.x, img.y)
  }

  /** `onDragStart`: dragging an unselected image selects it alone; the
      start position of each image of the selection is recorded. */
  function StartDrag(images: seq<PlacedImage>, sel: seq<Id>, id: Id): (r: DragStart)
    ensures id in sel ==> r.selection == sel
    ensures id !in sel ==> r.selection == [id]
    ensures forall i :: i in r.positions <==> i in r.selection && Find(images, i).Some?
    ensures forall i :: i in r.positions ==> r.positions[i] == Position(Find(images, i).value)
  {
    var current := if id in sel then sel else [id];
    DragStart(current, map i | i in current && Find(images, i).Some? :: Position(Find(images, i).value))
  }

  /** The throttled `onDragMove` of the image `id`, dragged to `node`. When
      it belongs to a selection of several, every selected image with a
      recorded start moves by the dragged image's displacement from its own
      start; otherwise only the dragged image moves. */
  function DragMove(images: seq<PlacedImage>, sel: seq<Id>, id: Id, node: Point, starts: map<Id, Point>): (r: seq<PlacedImage>)
    ensures |r| == |images|
    ensures forall k :: 0 <= k < |r| ==> r[k] == images[k].(x := r[k].x, y := r[k].y)
    ensures !(id in sel && |sel| > 1) ==> r == MoveTo(images, id, node)
    ensures id in sel && |sel| > 1 && id !in starts ==> r == images
    ensures id in sel && |sel| > 1 && id in starts ==>
      forall k :: 0 <= k < |r| && (images[k].id == id || (images[k].id in sel && images[k].id in starts)) ==>
        r[k].x - starts[images[k].id].x == node.x - starts[id].x &&
        r[k].y - starts[images[k].id].y == node.y - starts[id].y
    ensures id in sel && |sel| > 1 ==>
      forall k :: 0 <= k < |r| && images[k].id != id && !(images[k].id in sel && images[k].id in starts) ==>
        r[k] == images[k]
  {
    if id in sel && |sel| > 1 then
      if id in starts then
        var dx, dy := node.x - starts[id].x, node.y - starts[id].y;
        seq(|images|, k requires 0 <= k < |images| =>
          var img := images[k];
          if img.id == id then img.(x := node.x, y := node.y)
          else if img.id in sel && img.id in starts then
            img.(x := starts[img.id].x + dx, y := starts[img.id].y + dy)
          else img)
      else images
    else MoveTo(images, id, node)
  }

  /** Moving the dragged image of a multi-selection back to its start puts
      every image back where the drag found it. */
  lemma DragBackToStartRestores(images: seq<PlacedImage>, sel: seq<Id>, id: Id)
    requires UniqueImageIds(images)
    requires id in sel && |sel| > 1 && Find(images, id).Some?
    ensures var d := StartDrag(images, sel, id);
      DragMove(images, d.selection, id, d.positions[id], d.positions) == images
  {
    var d := StartDrag(images, sel, id);
    var r := DragMove(images, d.selection, id, d.positions[id], d.positions);
    forall k | 0 <= k < |images| ensures r[k] == images[k] {
      var i := images[k].id;
      if i == id || (i in sel && i in d.positions) {
        FindUnique(images, k);
        assert d.positions[i] == Position(images[k]);
      }
    }
  }

  /** The node attributes read when a resize ends. */
  datatype Node = Node(x: real, y: real, width: real, height: real, scaleX: real, scaleY: real, rotation: real)

  /** Smallest width or height the transformer leaves an image with. */
  const MinSide: real := 5.0

  /** `onTransformEnd`: the scale the transformer applied is folded into
      the size, floored at 5 px, and position and rotation are taken over;
      applied to every image carrying `id`. */
  function TransformEnd(images: seq<PlacedImage>, id: Id, node: Node): (r: seq<PlacedImage>)
    ensures |r| == |images|
    ensures forall k :: 0 <= k < |r| && images[k].id != id ==> r[k] == images[k]
    ensures forall k :: 0 <= k < |r| && images[k].id == id ==>
      && r[k].width >= MinSide && r[k].height >= MinSide
      && (node.width * node.scaleX >= MinSide ==> r[k].width == node.width * node.scaleX)
      && (node.height * node.scaleY >= MinSide ==> r[k].height == node.height * node.scaleY)
      && (node.width * node.scaleX < MinSide ==> r[k].width == MinSide)
      && (node.height * node.scaleY < MinSide ==> r[k].height == MinSide)
      && r[k].x == node.x && r[k].y == node.y && r[k].rotation == node.rotation
      && r[k] == images[k].(x := r[k].x, y := r[k].y, width := r[k].width, height := r[k].height, rotation := r[k].rotation)
  {
    var w, h := Max(MinSide, node.width * node.scaleX), Max(MinSide, node.height * node.scaleY);
    seq(|images|, k requires 0 <= k < |images| =>
      if images[k].id == id then
        images[k].(x := node.x, y := node.y, width := w, height := h, rotation := node.rotation)
      else images[k])
  }

  /** A box the transformer proposes while resizing. */
  datatype Box = Box(x: real, y: real, width: real, height: real, rotation: real)

  predicate LargeEnough(b: Box) {
    b.width >= MinSide && b.height >= MinSide
  }

  /** `boundBoxFunc`: a proposal narrower or lower than 5 px is refused and
      the previous box kept. */
  function BoundBox(oldBox: Box, newBox: Box): (r: Box)
    ensures LargeEnough(newBox) ==> r == newBox
    ensures !LargeEnough(newBox) ==> r == oldBox
  {
    if newBox.width < MinSide || newBox.height < MinSide then oldBox else newBox
  }

  /** The box after the transformer offers `proposals` one after another,
      each checked against the box accepted so far. */
  function Resize(start: Box, proposals: seq<Box>): Box
    decreases |proposals|
  {
    if |proposals| == 0 then start
    else Resize(BoundBox(start, proposals[0]), proposals[1..])
  }

  /** A resize that starts at least 5 px in each direction stays so, and
      ends either where it started or at one of the proposals. */
  lemma {:induction false} ResizeKeepsMinimum(start: Box, proposals: seq<Box>)
    requires LargeEnough(start)
    ensures LargeEnough(Resize(start, proposals))
    ensures Resize(start, proposals) == start || Resize(start, proposals) in proposals
    decreases |proposals|
  {
    if |proposals| > 0 {
      var next := BoundBox(start, proposals[0]);
      ResizeKeepsMinimum(next, proposals[1..]);
      var r := Resize(next, proposals[1..]);
      if r != next {
        assert r in proposals[1..];
      }
    }
  }

  /** The transformer is attached to a selected image only when it is the
      sole selected item. */
  predicate TransformerShown(img: PlacedImage, sel: seq<Id>) {
    img.id in sel && |sel| == 1
  }

  /** With distinct ids, at most one image shows a transformer. */
  lemma AtMostOneTransformer(images: seq<PlacedImage>, sel: seq<Id>, a: nat, b: nat)
    requires UniqueImageIds(images) && a < |images| && b < |images|
    requires TransformerShown(images[a], sel) && TransformerShown(images[b], sel)
    ensures a == b
  {
    assert images[a].id == sel[0] == images[b].id;
  }

  /** The pixel size of a loaded source image; an image not yet loaded
      counts as 0 by 0. */
  function NaturalOrZero(natural: Option<Size>): Size {
    if natural.Some? then natural.value else Size(0.0, 0.0)
  }

  /** The `crop` passed to the drawn image: none while the image is being
      cropped or when it has no crop offset, otherwise the crop fractions,
      with the falsy defaults, scaled to source pixels. */
  function CropRect(img: PlacedImage, isCropping: bool, natural: Option<Size>): (r: Option<Rect>)
    ensures r.Some? <==> img.cropX.Some? && !isCropping
    ensures r.Some? ==>
      var f, n := Edits.CropFractions(img), NaturalOrZero(natural);
      r.value == Rect(f.x * n.width, f.y * n.height, f.width * n.width, f.height * n.height)
  {
    if img.cropX.Some? && !isCropping then
      var n := NaturalOrZero(natural);
      Some(Rect(
        OrElse(img.cropX, 0.0) * OrElse(Some(n.width), 0.0),
        OrElse(img.cropY, 0.0) * OrElse(Some(n.height), 0.0),
        OrElse(img.cropWidth, 1.0) * OrElse(Some(n.width), 0.0),
        OrElse(img.cropHeight, 1.0) * OrElse(Some(n.height), 0.0)))
    else None
  }

  /** Crop fractions that stay within the source give a displayed crop
      within the source's pixels. */
  lemma CropRectInsideSource(img: PlacedImage, natural: Size)
    requires img.cropX.Some?
    requires natural.width >= 0.0 && natural.height >= 0.0
    requires var f := Edits.CropFractions(img);
      && 0.0 <= f.x && 0.0 <= f.width && f.x + f.width <= 1.0
      && 0.0 <= f.y && 0.0 <= f.height && f.y + f.height <= 1.0
    ensures Edits.Inside(CropRect(img, false, Some(natural)).value, Rect(0.0, 0.0, natural.width, natural.height))
  {
    var f := Edits.CropFractions(img);
    var c := CropRect(img, false, Some(natural)).value;
    assert c == Rect(f.x * natural.width, f.y * natural.height, f.width * natural.width, f.height * natural.height);
    SpanWithinSide(f.x, f.width, natural.width);
    SpanWithinSide(f.y, f.height, natural.height);
    assert c.x + c.width <= 0.0 + natural.width && c.y + c.height <= 0.0 + natural.height;
  }

  /** A span of fractions within [0, 1] of a side stays within the side. */
  lemma SpanWithinSide(start: real, extent: real, side: real)
    requires 0.0 <= start && 0.0 <= extent && start + extent <= 1.0 && side >= 0.0
    ensures 0.0 <= start * side && start * side + extent * side <= side
  {
    assert start * side + extent * side == (start + extent) * side;
    assert (start + extent) * side <= 1.0 * side;
  }

  /** Mouse events on an image. */
  datatype PointerEvent = Down(button: int) | Up

  /** `isDraggable` after a run of events, starting draggable: a press
      allows dragging only with the left button (0); a release allows it
      again. */
  function DraggableAfter(draggable: bool, events: seq<PointerEvent>): bool
    decreases |events|
  {
    if |events| == 0 then draggable
    else
      var next := match events[0] case Down(button) => button == 0 case Up => true;
      DraggableAfter(next, events[1..])
  }

  /** Only the last event matters: the image can be dragged unless the
      last event was a press of another button than the left one. */
  lemma {:induction false} DraggableDecidedByLastEvent(draggable: bool, events: seq<PointerEvent>)
    ensures |events| == 0 ==> DraggableAfter(draggable, events) == draggable
    ensures |events| > 0 ==>
      (DraggableAfter(draggable, events) <==> !(events[|events| - 1].Down? && events[|events| - 1].button != 0))
    decreases |events|
  {
    if |events| > 1 {
      var next := match events[0] case Down(button) => button == 0 case Up => true;
      DraggableDecidedByLastEvent(next, events[1..]);
      assert events[1..][|events[1..]| - 1] == events[|events| - 1];
    }
  }
}

=== FILE: canvas_types.dfy ===
/** Records of the infinite-canvas editor: placed images and videos, history
    snapshots, the rubber-band selection box, generation settings and the
    viewport. Geometry is over mathematical reals. Item ids are strings in the
    application; the model only ever compares them for equality. */
module CanvasTypes {

  /** An optional field or argument (`undefined` in the application). */
  datatype Option<+T> = None | Some(value: T)

  type Id = string

  datatype Point = Point(x: real, y: real)

  datatype Size = Size(width: real, height: real)

  /** An axis-aligned rectangle given by its top-left corner and its extent. */
  datatype Rect = Rect(x: real, y: real, width: real, height: real)

  /** An image on the canvas. The four crop fields are fractions of the
      source image (0..1); when absent the whole image is shown. */
  datatype PlacedImage = PlacedImage(
    id: Id,
    src: string,
    x: real,
    y: real,
    width: real,
    height: real,
    rotation: real,
    isGenerated: Option<bool>,
    parentGroupId: Option<Id>,
    cropX: Option<real>,
    cropY: Option<real>,
    cropWidth: Option<real>,
    cropHeight: Option<real>)

  /** A video on the canvas: the image fields (without `isGenerated`) plus
      its playback state. */
  datatype PlacedVideo = PlacedVideo(
    id: Id,
    src: string,
    x: real,
    y: real,
    width: real,
    height: real,
    rotation: real,
    parentGroupId: Option<Id>,
    cropX: Option<real>,
    cropY: Option<real>,
    cropWidth: Option<real>,
    cropHeight: Option<real>,
    duration: real,
    currentTime: real,
    isPlaying: bool,
    volume: real,
    muted: bool,
    isLooping: Option<bool>,
    isGenerating: Option<bool>,
    isLoaded: Option<bool>)

  /** One undo/redo entry. `videos` is optional because entries written
      before videos existed do not carry it. */
  datatype HistoryState = HistoryState(
    images: seq<PlacedImage>,
    videos: Option<seq<PlacedVideo>>,
    selectedIds: seq<Id>)

  /** The rubber-band box, in canvas coordinates, as the pointer drew it. */
  datatype SelectionBox = SelectionBox(
    startX: real,
    startY: real,
    endX: real,
    endY: real,
    visible: bool)

  /** The named aspect ratios the generation service accepts. */
  datatype AspectRatio =
    | Ratio21x9 | Ratio1x1 | Ratio4x3 | Ratio3x2 | Ratio2x3
    | Ratio5x4 | Ratio4x5 | Ratio3x4 | Ratio16x9 | Ratio9x16

  /** The aspect-ratio setting: a fixed ratio, or "auto" (infer from size). */
  datatype AspectSetting = Auto | Fixed(ratio: AspectRatio)

  datatype GenerationSettings = GenerationSettings(
    prompt: string,
    styleId: Option<string>,
    aspectRatio: Option<AspectSetting>)

  /** Parameters of a generation in flight, keyed by its placeholder id. */
  datatype ActiveGeneration = ActiveGeneration(
    imageUrl: string,
    prompt: string,
    aspectRatio: Option<AspectRatio>)

  /** The stage transform: a canvas point q is drawn at screen point
      q * scale + (x, y). */
  datatype Viewport = Viewport(x: real, y: real, scale: real)

  /** JavaScript `v || d` on an optional number: both `undefined` and 0 are
      falsy and fall back to `d`. */
  function OrElse(v: Option<real>, d: real): (r: real)
    ensures v.None? ==> r == d
    ensures v.Some? && v.value == 0.0 ==> r == d
    ensures v.Some? && v.value != 0.0 ==> r == v.value
  {
    if v.Some? && v.value != 0.0 then v.value else d
  }

  /** `Math.round` on a real: the nearest integer, halves rounding up. */
  function Round(v: real): (r: int)
    ensures v - 0.5 < r as real <= v + 0.5
  {
    (v + 0.5).Floor
  }

  function Max(a: real, b: real): (r: real)
    ensures r >= a && r >= b && (r == a || r == b)
  {
    if a >= b then a else b
  }

  function Min(a: real, b: real): (r: real)
    ensures r <= a && r <= b && (r == a || r == b)
  {
    if a <= b then a else b
  }

  function Abs(v: real): (r: real)
    ensures r >= 0.0 && (r == v || r == -v)
  {
    if v >= 0.0 then v else -v
  }

  /** Rounding never moves a value past an integer bound it respects. */
  lemma RoundMonotone(a: real, b: real)
    requires a <= b
    ensures Round(a) <= Round(b)
  {
    assert a + 0.5 <= b + 0.5;
  }

  /** Rounding leaves integers alone. */
  lemma RoundOfInteger(n: int)
    ensures Round(n as real) == n
  {
  }
}

=== FILE: dimensions.dfy ===
/** The pixel-size label shown under a selected image
    (src/components/canvas/DimensionDisplay.tsx): shown only when exactly
    one image is selected, it gives the size of the image data a generation
    request starts from, accounting for the crop, or the displayed size
    when the source cannot be loaded. */
module Dimensions {
  import opened CanvasTypes
  import opened Seqs
  import opened Editor
  import Generation

  /** The label is rendered for a selection of exactly one image. */
  predicate ShowsDimensions(selectedImages: seq<PlacedImage>) {
    |selectedImages| == 1
  }

  /** Selecting one existing image alone shows its label. */
  lemma SingleSelectionShows(images: seq<PlacedImage>, id: Id)
    requires UniqueImageIds(images) && Find(images, id).Some?
    ensures ShowsDimensions(SelectedImages(images, [id]))
    ensures SelectedImages(images, [id])[0] == Find(images, id).value
  {
    var r := SelectedImages(images, [id]);
    var x := Find(images, id).value;
    UniqueIdsNoDup(images);
    NoDupCount(images, x);
    FilterMultiset(images, ImageIn([id]));
    forall y | y in r ensures y == x {
      assert y.id in [id];
      SameIdSameImage(images, x, y);
    }
    assert multiset(r) == multiset{x} by {
      forall y ensures multiset(r)[y] == multiset{x}[y] {
        if y != x { assert y !in r; }
      }
    }
    assert |r| == |multiset(r)| == 1;
    assert r[0] in r;
  }

  /** Two selected ids that name different images hide the label. */
  lemma TwoSelectedHide(images: seq<PlacedImage>, sel: seq<Id>, a: nat, b: nat)
    requires a < |images| && b < |images| && images[a] != images[b]
    requires images[a].id in sel && images[b].id in sel
    ensures !ShowsDimensions(SelectedImages(images, sel))
  {
    var r := SelectedImages(images, sel);
    assert images[a] in r && images[b] in r;
  }

  /** The size the label shows and whether the image is cropped. */
  datatype ApiDims = ApiDims(width: int, height: int, isCropped: bool)

  /** `getApiDimensions`. `natural` is the loaded source's pixel size, or
      `None` when loading failed; the failure falls back to the rounded
      displayed size, not cropped. */
  function ApiDimensions(img: PlacedImage, natural: Option<Size>): (r: ApiDims)
    ensures natural.None? ==> r == ApiDims(Round(img.width), Round(img.height), false)
    ensures natural.Some? ==> (r.isCropped <==> OrElse(img.cropWidth, 1.0) != 1.0 || OrElse(img.cropHeight, 1.0) != 1.0)
    ensures natural.Some? ==>
      var eff := Generation.EffectiveSize(natural.value, OrElse(img.cropWidth, 1.0), OrElse(img.cropHeight, 1.0));
      r.width == Round(eff.width) && r.height == Round(eff.height)
  {
    match natural
    case None => ApiDims(Round(img.width), Round(img.height), false)
    case Some(n) =>
      var cw, ch := OrElse(img.cropWidth, 1.0), OrElse(img.cropHeight, 1.0);
      ApiDims(Round(cw * n.width), Round(ch * n.height), cw != 1.0 || ch != 1.0)
  }

  /** An uncropped image is reported at its source size, as not cropped. */
  lemma UncroppedShowsSourceSize(img: PlacedImage, natural: Size)
    requires img.cropWidth.None? && img.cropHeight.None?
    ensures ApiDimensions(img, Some(natural)) == ApiDims(Round(natural.width), Round(natural.height), false)
  {
  }

  /** Up to 4096 pixels a side, the label shows exactly the size that is
      uploaded for generation. */
  lemma ApiDimensionsMatchUpload(img: PlacedImage, natural: Size)
    requires var eff := Generation.EffectiveSize(natural, OrElse(img.cropWidth, 1.0), OrElse(img.cropHeight, 1.0));
      Max(eff.width, eff.height) <= Generation.MaxSide
    ensures var d, eff := ApiDimensions(img, Some(natural)),
                          Generation.EffectiveSize(natural, OrElse(img.cropWidth, 1.0), OrElse(img.cropHeight, 1.0));
      (d.width, d.height) == Generation.UploadSize(eff)
  {
  }

  /** Beyond 4096 pixels the label overstates the uploaded size: an
      uncropped 8000 x 6000 source is labelled 8000 x 6000 while 4096 x 3072
      is uploaded. */
  lemma ApiDimensionsOverstateLargeUpload(img: PlacedImage)
    requires img.cropWidth.None? && img.cropHeight.None?
    ensures var d := ApiDimensions(img, Some(Size(8000.0, 6000.0)));
      (d.width, d.height) == (8000, 6000)
      && Generation.UploadSize(Size(8000.0, 6000.0)) == (4096, 3072)
  {
    RoundOfInteger(8000);
    RoundOfInteger(6000);
    var k := Generation.UploadScale(Size(8000.0, 6000.0));
    assert k == 4096.0 / 8000.0;
    assert 8000.0 * k == 4096 as real;
    assert 6000.0 * k == 3072 as real;
    RoundOfInteger(4096);
    RoundOfInteger(3072);
  }

  /** The label as the size the generation request actually uses: the
      loaded size goes through the same 4096 cap as the upload. */
  function CappedApiDimensions(img: PlacedImage, natural: Option<Size>): (r: ApiDims)
    ensures natural.None? ==> r == ApiDimensions(img, natural)
    ensures natural.Some? ==> r.isCropped == ApiDimensions(img, natural).isCropped
    ensures natural.Some? ==>
      var eff := Generation.EffectiveSize(natural.value, OrElse(img.cropWidth, 1.0), OrElse(img.cropHeight, 1.0));
      Max(eff.width, eff.height) <= Generation.MaxSide ==> r == ApiDimensions(img, natural)
  {
    match natural
    case None => ApiDimensions(img, natural)
    case Some(n) =>
      var cw, ch := OrElse(img.cropWidth, 1.0), OrElse(img.cropHeight, 1.0);
      var size := Generation.UploadSize(Generation.EffectiveSize(n, cw, ch));
      ApiDims(size.0, size.1, cw != 1.0 || ch != 1.0)
  }

  /** The capped label always shows the uploaded size, and never more than
      4096 on a side for a source of non-negative size. */
  lemma CappedApiDimensionsMatchUpload(img: PlacedImage, natural: Size)
    ensures var d, eff := CappedApiDimensions(img, Some(natural)),
                          Generation.EffectiveSize(natural, OrElse(img.cropWidth, 1.0), OrElse(img.cropHeight, 1.0));
      (d.width, d.height) == Generation.UploadSize(eff)
    ensures var eff := Generation.EffectiveSize(natural, OrElse(img.cropWidth, 1.0), OrElse(img.cropHeight, 1.0));
      eff.width >= 0.0 && eff.height >= 0.0 ==>
        CappedApiDimensions(img, Some(natural)).width <= 4096 && CappedApiDimensions(img, Some(natural)).height <= 4096
  {
    var eff := Generation.EffectiveSize(natural, OrElse(img.cropWidth, 1.0), OrElse(img.cropHeight, 1.0));
    if eff.width >= 0.0 && eff.height >= 0.0 {
      Generation.UploadSizeCapped(eff);
    }
  }
}

=== FILE: editor.dfy ===
/** The state the editor page keeps: the items on the canvas with the current
    selection, the undo/redo history, the rubber-band box, panning and crop
    modes, and the viewport. */
module Editor {
  import opened CanvasTypes
  import opened Seqs

  /** What a history entry captures: both item lists and the selection. */
  datatype Canvas = Canvas(
    images: seq<PlacedImage>,
    videos: seq<PlacedVideo>,
    selectedIds: seq<Id>)

  datatype Editor = Editor(
    canvas: Canvas,
    history: seq<HistoryState>,
    historyIndex: int,
    selectionBox: SelectionBox,
    isSelecting: bool,
    isPanningCanvas: bool,
    lastPanPosition: Point,
    croppingImageId: Option<Id>,
    viewport: Viewport)

  /** The page before its first effect runs: nothing placed, an empty
      history with index -1, an invisible box and the identity viewport. */
  const Initial: Editor := Editor(
    Canvas([], [], []),
    [],
    -1,
    SelectionBox(0.0, 0.0, 0.0, 0.0, false),
    false,
    false,
    Point(0.0, 0.0),
    None,
    Viewport(0.0, 0.0, 1.0))

  /** Whether an image or video belongs to a selection. */
  function ImageIn(ids: seq<Id>): PlacedImage -> bool {
    (img: PlacedImage) => img.id in ids
  }

  function ImageNotIn(ids: seq<Id>): PlacedImage -> bool {
    (img: PlacedImage) => img.id !in ids
  }

  function VideoIn(ids: seq<Id>): PlacedVideo -> bool {
    (vid: PlacedVideo) => vid.id in ids
  }

  function VideoNotIn(ids: seq<Id>): PlacedVideo -> bool {
    (vid: PlacedVideo) => vid.id !in ids
  }

  /** The images a selection covers, in canvas order. */
  function SelectedImages(images: seq<PlacedImage>, sel: seq<Id>): seq<PlacedImage> {
    Filter(images, ImageIn(sel))
  }

  /** The videos a selection covers, in canvas order. */
  function SelectedVideos(videos: seq<PlacedVideo>, sel: seq<Id>): seq<PlacedVideo> {
    Filter(videos, VideoIn(sel))
  }

  /** `images.map(img => img.id)` */
  function ImageIds(images: seq<PlacedImage>): (r: seq<Id>)
    ensures |r| == |images|
    ensures forall k :: 0 <= k < |r| ==> r[k] == images[k].id
  {
    seq(|images|, k requires 0 <= k < |images| => images[k].id)
  }

  /** `videos.map(vid => vid.id)` */
  function VideoIds(videos: seq<PlacedVideo>): (r: seq<Id>)
    ensures |r| == |videos|
    ensures forall k :: 0 <= k < |r| ==> r[k] == videos[k].id
  {
    seq(|videos|, k requires 0 <= k < |videos| => videos[k].id)
  }

  lemma ImageIdsMembership(images: seq<PlacedImage>)
    ensures forall id :: id in ImageIds(images) <==> exists img :: img in images && img.id == id
  {
    forall id | id in ImageIds(images)
      ensures exists img :: img in images && img.id == id
    {
      var k :| 0 <= k < |images| && ImageIds(images)[k] == id;
      assert images[k] in images;
    }
    forall id, img | img in images && img.id == id
      ensures id in ImageIds(images)
    {
      var k :| 0 <= k < |images| && images[k] == img;
      assert ImageIds(images)[k] == id;
    }
  }

  lemma VideoIdsMembership(videos: seq<PlacedVideo>)
    ensures forall id :: id in VideoIds(videos) <==> exists vid :: vid in videos && vid.id == id
  {
    forall id | id in VideoIds(videos)
      ensures exists vid :: vid in videos && vid.id == id
    {
      var k :| 0 <= k < |videos| && VideoIds(videos)[k] == id;
      assert videos[k] in videos;
    }
    forall id, vid | vid in videos && vid.id == id
      ensures id in VideoIds(videos)
    {
      var k :| 0 <= k < |videos| && videos[k] == vid;
      assert VideoIds(videos)[k] == id;
    }
  }

  /** No two images share an id. The application draws ids from the clock
      and a random number, which makes clashes unlikely but not impossible,
      so properties that need distinct ids say so. */
  predicate UniqueImageIds(images: seq<PlacedImage>) {
    forall i, j :: 0 <= i < j < |images| ==> images[i].id != images[j].id
  }

  /** Distinct ids make distinct images. */
  lemma UniqueIdsNoDup(images: seq<PlacedImage>)
    requires UniqueImageIds(images)
    ensures NoDup(images)
  {
  }

  lemma SameIdSameImage(images: seq<PlacedImage>, x: PlacedImage, y: PlacedImage)
    requires UniqueImageIds(images) && x in images && y in images && x.id == y.id
    ensures x == y
  {
    var i :| 0 <= i < |images| && images[i] == x;
    var j :| 0 <= j < |images| && images[j] == y;
    assert i == j;
  }

  /** Index of the first image with id `id`, or |images| when there is none
      (`Array.prototype.findIndex`, with "not found" moved to the end). */
  function FirstIndex(images: seq<PlacedImage>, id: Id): (k: nat)
    ensures k <= |images|
    ensures forall j :: 0 <= j < k ==> images[j].id != id
    ensures k < |images| ==> images[k].id == id
  {
    if |images| == 0 then 0
    else if images[0].id == id then 0
    else 1 + FirstIndex(images[1..], id)
  }

  /** `images.find(img => img.id === id)` */
  function Find(images: seq<PlacedImage>, id: Id): (r: Option<PlacedImage>)
    ensures r.None? <==> forall k :: 0 <= k < |images| ==> images[k].id != id
    ensures r.Some? ==> r.value in images && r.value.id == id
    ensures r.Some? ==>
      exists k :: 0 <= k < |images| && images[k] == r.value && (forall j :: 0 <= j < k ==> images[j].id != id)
  {
    var k := FirstIndex(images, id);
    if k < |images| then Some(images[k]) else None
  }

  /** With distinct ids, `find` returns the one image that carries the id. */
  lemma FindUnique(images: seq<PlacedImage>, k: nat)
    requires UniqueImageIds(images) && k < |images|
    ensures Find(images, images[k].id) == Some(images[k])
  {
    var f := FirstIndex(images, images[k].id);
    assert f <= k;
  }
}

=== FILE: edits.dfy ===
/** Edits of the canvas contents on the editor page (src/app/page.tsx):
    deleting and duplicating the selection, and committing a crop. Ids for
    duplicates come from the clock and a random number in the application;
    here they are parameters. */
module Edits {
  import opened CanvasTypes
  import opened Seqs
  import opened Editor
  import History

  /** `handleDelete` on the canvas: every selected image and video goes,
      the rest keep their order, and the selection is cleared. */
  function DeleteSelected(c: Canvas): (r: Canvas)
    ensures r.selectedIds == []
    ensures forall img :: img in r.images <==> img in c.images && img.id !in c.selectedIds
    ensures forall vid :: vid in r.videos <==> vid in c.videos && vid.id !in c.selectedIds
    ensures forall img :: multiset(r.images)[img] == if img.id in c.selectedIds then 0 else multiset(c.images)[img]
    ensures forall vid :: multiset(r.videos)[vid] == if vid.id in c.selectedIds then 0 else multiset(c.videos)[vid]
  {
    FilterMultiset(c.images, ImageNotIn(c.selectedIds));
    FilterMultiset(c.videos, VideoNotIn(c.selectedIds));
    Canvas(Filter(c.images, ImageNotIn(c.selectedIds)), Filter(c.videos, VideoNotIn(c.selectedIds)), [])
  }

  /** With nothing selected, deleting changes nothing on the canvas. */
  lemma DeleteNothingSelected(c: Canvas)
    requires c.selectedIds == []
    ensures DeleteSelected(c) == c
  {
    FilterKeepsAll(c.images, ImageNotIn(c.selectedIds));
    FilterKeepsAll(c.videos, VideoNotIn(c.selectedIds));
  }

  /** A duplicated image: a fresh id and 20 px to the right and down. */
  function CopyImage(img: PlacedImage, id: Id): (r: PlacedImage)
    ensures r.id == id
    ensures r.x - img.x == 20.0 && r.y - img.y == 20.0
    ensures r.(id := img.id, x := img.x, y := img.y) == img
  {
    img.(id := id, x := img.x + 20.0, y := img.y + 20.0)
  }

  /** A duplicated video: like an image, and playback starts over, paused. */
  function CopyVideo(vid: PlacedVideo, id: Id): (r: PlacedVideo)
    ensures r.id == id
    ensures r.x - vid.x == 20.0 && r.y - vid.y == 20.0
    ensures r.currentTime == 0.0 && !r.isPlaying
    ensures r.(id := vid.id, x := vid.x, y := vid.y, currentTime := vid.currentTime, isPlaying := vid.isPlaying) == vid
  {
    vid.(id := id, x := vid.x + 20.0, y := vid.y + 20.0, currentTime := 0.0, isPlaying := false)
  }

  function CopyImages(src: seq<PlacedImage>, ids: seq<Id>): (r: seq<PlacedImage>)
    requires |src| == |ids|
    ensures |r| == |src|
    ensures forall k :: 0 <= k < |r| ==> r[k] == CopyImage(src[k], ids[k])
  {
    seq(|src|, k requires 0 <= k < |src| => CopyImage(src[k], ids[k]))
  }

  function CopyVideos(src: seq<PlacedVideo>, ids: seq<Id>): (r: seq<PlacedVideo>)
    requires |src| == |ids|
    ensures |r| == |src|
    ensures forall k :: 0 <= k < |r| ==> r[k] == CopyVideo(src[k], ids[k])
  {
    seq(|src|, k requires 0 <= k < |src| => CopyVideo(src[k], ids[k]))
  }

  /** `handleDuplicate` on the canvas: a copy of every selected image and
      video, in canvas order, is appended under the given fresh ids, and the
      copies become the selection (images first). */
  function DuplicateSelected(c: Canvas, imageIds: seq<Id>, videoIds: seq<Id>): (r: Canvas)
    requires |imageIds| == |SelectedImages(c.images, c.selectedIds)| && |videoIds| == |SelectedVideos(c.videos, c.selectedIds)|
    ensures |r.images| == |c.images| + |SelectedImages(c.images, c.selectedIds)|
    ensures |r.videos| == |c.videos| + |SelectedVideos(c.videos, c.selectedIds)|
    ensures r.images[..|c.images|] == c.images && r.videos[..|c.videos|] == c.videos
    ensures forall k :: 0 <= k < |imageIds| ==>
      var copy, orig := r.images[|c.images| + k], SelectedImages(c.images, c.selectedIds)[k];
      && copy.id == imageIds[k] && copy.x == orig.x + 20.0 && copy.y == orig.y + 20.0
      && copy.(id := orig.id, x := orig.x, y := orig.y) == orig
    ensures forall k :: 0 <= k < |videoIds| ==>
      var copy, orig := r.videos[|c.videos| + k], SelectedVideos(c.videos, c.selectedIds)[k];
      && copy.id == videoIds[k] && copy.x == orig.x + 20.0 && copy.y == orig.y + 20.0
      && copy.currentTime == 0.0 && !copy.isPlaying
      && copy.(id := orig.id, x := orig.x, y := orig.y, currentTime := orig.currentTime, isPlaying := orig.isPlaying) == orig
    ensures r.selectedIds == imageIds + videoIds
  {
    Canvas(
      c.images + CopyImages(SelectedImages(c.images, c.selectedIds), imageIds),
      c.videos + CopyVideos(SelectedVideos(c.videos, c.selectedIds), videoIds),
      imageIds + videoIds)
  }

  /** Deleting right after duplicating removes exactly the copies, provided
      the fresh ids are new to the canvas. */
  lemma DeleteUndoesDuplicate(c: Canvas, imageIds: seq<Id>, videoIds: seq<Id>)
    requires |imageIds| == |SelectedImages(c.images, c.selectedIds)| && |videoIds| == |SelectedVideos(c.videos, c.selectedIds)|
    requires forall id :: id in imageIds + videoIds ==> id !in ImageIds(c.images) && id !in VideoIds(c.videos)
    ensures DeleteSelected(DuplicateSelected(c, imageIds, videoIds)) == c.(selectedIds := [])
  {
    var d := DuplicateSelected(c, imageIds, videoIds);
    var newIds := imageIds + videoIds;
    var imgCopies := CopyImages(SelectedImages(c.images, c.selectedIds), imageIds);
    var vidCopies := CopyVideos(SelectedVideos(c.videos, c.selectedIds), videoIds);
    assert d.images == c.images + imgCopies && d.videos == c.videos + vidCopies;
    forall k | 0 <= k < |c.images| ensures ImageNotIn(newIds)(c.images[k]) {
      assert ImageIds(c.images)[k] == c.images[k].id;
    }
    forall k | 0 <= k < |c.videos| ensures VideoNotIn(newIds)(c.videos[k]) {
      assert VideoIds(c.videos)[k] == c.videos[k].id;
    }
    forall k | 0 <= k < |imgCopies| ensures !ImageNotIn(newIds)(imgCopies[k]) {
      assert imgCopies[k].id == newIds[k];
    }
    forall k | 0 <= k < |vidCopies| ensures !VideoNotIn(newIds)(vidCopies[k]) {
      assert vidCopies[k].id == newIds[|imageIds| + k];
    }
    FilterOfSplit(c.images, imgCopies, ImageNotIn(newIds));
    FilterOfSplit(c.videos, vidCopies, VideoNotIn(newIds));
  }

  /** The crop an image carries, as fractions of its source, with the
      falsy-default rule: a missing or zero offset is 0 and a missing or zero
      extent is 1. */
  function CropFractions(img: PlacedImage): (f: Rect)
    ensures img.cropX.None? && img.cropY.None? && img.cropWidth.None? && img.cropHeight.None? ==>
      f == Rect(0.0, 0.0, 1.0, 1.0)
    ensures f.width != 0.0 && f.height != 0.0
    ensures img.cropX.Some? && img.cropX.value != 0.0 ==> f.x == img.cropX.value
    ensures img.cropY.Some? && img.cropY.value != 0.0 ==> f.y == img.cropY.value
    ensures img.cropWidth.Some? && img.cropWidth.value != 0.0 ==> f.width == img.cropWidth.value
    ensures img.cropHeight.Some? && img.cropHeight.value != 0.0 ==> f.height == img.cropHeight.value
    ensures (img.cropX.None? || img.cropX.value == 0.0) ==> f.x == 0.0
    ensures (img.cropY.None? || img.cropY.value == 0.0) ==> f.y == 0.0
    ensures (img.cropWidth.None? || img.cropWidth.value == 0.0) ==> f.width == 1.0
    ensures (img.cropHeight.None? || img.cropHeight.value == 0.0) ==> f.height == 1.0
  {
    Rect(OrElse(img.cropX, 0.0), OrElse(img.cropY, 0.0), OrElse(img.cropWidth, 1.0), OrElse(img.cropHeight, 1.0))
  }

  /** The image after its crop `f` is made permanent: the new source shows
      exactly the cropped part, placed where that part was drawn. */
  function CropImage(img: PlacedImage, f: Rect, src: string): (r: PlacedImage)
    ensures r.src == src
    ensures r.cropX.None? && r.cropY.None? && r.cropWidth.None? && r.cropHeight.None?
    ensures Bounds(r) == Rect(img.x + f.x * img.width, img.y + f.y * img.height, f.width * img.width, f.height * img.height)
    ensures r.(x := img.x, y := img.y, width := img.width, height := img.height, src := img.src,
               cropX := img.cropX, cropY := img.cropY, cropWidth := img.cropWidth, cropHeight := img.cropHeight) == img
  {
    img.(
      src := src,
      x := img.x + f.x * img.width,
      y := img.y + f.y * img.height,
      width := f.width * img.width,
      height := f.height * img.height,
      cropX := None, cropY := None, cropWidth := None, cropHeight := None)
  }

  /** The image update of `onCropEnd`. The fractions come from the first
      image with the cropping id; every image with that id is replaced when
      the cropped source was produced (`Some`), and nothing changes when
      producing it failed (`None`) or no image has the id. */
  function CommitCrop(images: seq<PlacedImage>, id: Id, cropped: Option<string>): (r: seq<PlacedImage>)
    ensures |r| == |images|
    ensures Find(images, id).None? || cropped.None? ==> r == images
    ensures forall k :: 0 <= k < |images| && images[k].id != id ==> r[k] == images[k]
    ensures Find(images, id).Some? && cropped.Some? ==>
      forall k :: 0 <= k < |images| && images[k].id == id ==>
        r[k] == CropImage(images[k], CropFractions(Find(images, id).value), cropped.value)
  {
    match Find(images, id)
    case None => images
    case Some(target) =>
      match cropped
      case None => images
      case Some(src) =>
        var f := CropFractions(target);
        seq(|images|, k requires 0 <= k < |images| =>
          if images[k].id == id then CropImage(images[k], f, src) else images[k])
  }

  /** Whether rectangle `inner` lies inside rectangle `outer`. */
  predicate Inside(inner: Rect, outer: Rect) {
    && outer.x <= inner.x && inner.x + inner.width <= outer.x + outer.width
    && outer.y <= inner.y && inner.y + inner.height <= outer.y + outer.height
  }

  function Bounds(img: PlacedImage): Rect {
    Rect(img.x, img.y, img.width, img.height)
  }

  /** A crop whose fractions stay within the source keeps the image inside
      the rectangle it was drawn in. */
  lemma CropStaysInside(img: PlacedImage, f: Rect, src: string)
    requires img.width >= 0.0 && img.height >= 0.0
    requires 0.0 <= f.x && 0.0 <= f.width && f.x + f.width <= 1.0
    requires 0.0 <= f.y && 0.0 <= f.height && f.y + f.height <= 1.0
    ensures Inside(Bounds(CropImage(img, f, src)), Bounds(img))
  {
    var r := CropImage(img, f, src);
    assert r.x + r.width == img.x + (f.x + f.width) * img.width;
    assert (f.x + f.width) * img.width <= img.width;
    assert r.y + r.height == img.y + (f.y + f.height) * img.height;
    assert (f.y + f.height) * img.height <= img.height;
    assert f.x * img.width >= 0.0 && f.y * img.height >= 0.0;
  }

  /** Committing an image that carries no crop keeps its place and size. */
  lemma UncroppedCommitKeepsBounds(img: PlacedImage, src: string)
    requires img.cropX.None? && img.cropY.None? && img.cropWidth.None? && img.cropHeight.None?
    ensures Bounds(CropImage(img, CropFractions(img), src)) == Bounds(img)
  {
  }

  /** `handleDelete`: checkpoint the canvas as it is, then delete the
      selection. */
  function HandleDelete(e: Editor): (r: Editor)
    ensures r.canvas == DeleteSelected(e.canvas)
    ensures r.canvas.selectedIds == []
    ensures forall img :: img in r.canvas.images <==> img in e.canvas.images && img.id !in e.canvas.selectedIds
    ensures forall vid :: vid in r.canvas.videos <==> vid in e.canvas.videos && vid.id !in e.canvas.selectedIds
    ensures 0 <= r.historyIndex == |r.history| - 1
    ensures r.history[r.historyIndex] == History.Snapshot(e.canvas)
    ensures History.ValidIndex(e) ==> r.history == e.history[..e.historyIndex + 1] + [History.Snapshot(e.canvas)]
    ensures r == e.(canvas := r.canvas, history := r.history, historyIndex := r.historyIndex)
  {
    History.CheckpointThenApply(e, DeleteSelected(e.canvas))
  }

  /** `handleDuplicate`: checkpoint the canvas as it is, then append the
      copies and select them. */
  function HandleDuplicate(e: Editor, imageIds: seq<Id>, videoIds: seq<Id>): (r: Editor)
    requires |imageIds| == |SelectedImages(e.canvas.images, e.canvas.selectedIds)| && |videoIds| == |SelectedVideos(e.canvas.videos, e.canvas.selectedIds)|
    ensures r.canvas == DuplicateSelected(e.canvas, imageIds, videoIds)
    ensures r.canvas.selectedIds == imageIds + videoIds
    ensures |r.canvas.images| == |e.canvas.images| + |imageIds| && r.canvas.images[..|e.canvas.images|] == e.canvas.images
    ensures |r.canvas.videos| == |e.canvas.videos| + |videoIds| && r.canvas.videos[..|e.canvas.videos|] == e.canvas.videos
    ensures 0 <= r.historyIndex == |r.history| - 1
    ensures r.history[r.historyIndex] == History.Snapshot(e.canvas)
    ensures History.ValidIndex(e) ==> r.history == e.history[..e.historyIndex + 1] + [History.Snapshot(e.canvas)]
    ensures r == e.(canvas := r.canvas, history := r.history, historyIndex := r.historyIndex)
  {
    History.CheckpointThenApply(e, DuplicateSelected(e.canvas, imageIds, videoIds))
  }

  /** From a page in sync with its history, one undo reverts a delete or a
      duplicate; a redo after it shows the canvas before the edit again. */
  lemma UndoRevertsDeleteAndDuplicate(e: Editor, imageIds: seq<Id>, videoIds: seq<Id>)
    requires History.Synced(e)
    requires |imageIds| == |SelectedImages(e.canvas.images, e.canvas.selectedIds)| && |videoIds| == |SelectedVideos(e.canvas.videos, e.canvas.selectedIds)|
    ensures History.Undo(HandleDelete(e)).canvas == e.canvas
    ensures History.Undo(HandleDuplicate(e, imageIds, videoIds)).canvas == e.canvas
    ensures History.Redo(History.Undo(HandleDelete(e))).canvas == e.canvas
    ensures History.Redo(History.Undo(HandleDuplicate(e, imageIds, videoIds))).canvas == e.canvas
  {
    History.RedoAfterUndoLosesEdit(e, DeleteSelected(e.canvas));
    History.RedoAfterUndoLosesEdit(e, DuplicateSelected(e.canvas, imageIds, videoIds));
  }

  /** `onCropEnd`: commit the crop of the image being cropped (if any) and
      leave crop mode. The `saveToHistory` it calls afterwards was captured
      with the page's state before the commit, so like every other edit it
      records the canvas as it was before the change, even when producing
      the cropped source failed. */
  function CropEnd(e: Editor, cropped: Option<string>): (r: Editor)
    ensures e.croppingImageId.Some? ==> r.canvas.images == CommitCrop(e.canvas.images, e.croppingImageId.value, cropped)
    ensures 0 <= r.historyIndex == |r.history| - 1
    ensures r.history[r.historyIndex] == History.Snapshot(e.canvas)
    ensures History.ValidIndex(e) ==> r.history == e.history[..e.historyIndex + 1] + [History.Snapshot(e.canvas)]
    ensures r == e.(canvas := r.canvas, history := r.history, historyIndex := r.historyIndex, croppingImageId := None)
    ensures r.canvas.videos == e.canvas.videos && r.canvas.selectedIds == e.canvas.selectedIds
    ensures e.croppingImageId.None? || cropped.None? ==> r.canvas.images == e.canvas.images
    ensures |r.canvas.images| == |e.canvas.images|
    ensures forall k :: 0 <= k < |e.canvas.images| && Some(e.canvas.images[k].id) != e.croppingImageId ==>
      r.canvas.images[k] == e.canvas.images[k]
  {
    var images := match e.croppingImageId
      case None => e.canvas.images
      case Some(id) => CommitCrop(e.canvas.images, id, cropped);
    History.CheckpointThenApply(e, e.canvas.(images := images)).(croppingImageId := None)
  }
}

=== FILE: generation.dfy ===
/** Image-to-image generation requests (src/lib/handlers/generation-handler.ts):
    choosing the aspect-ratio label sent with a request, placing the
    placeholder that stands in for the result, capping the uploaded source
    at 4096 pixels a side, and the run over every selected image. Loading,
    drawing, encoding and uploading images are outside the model: their
    outcome for each selected image is a parameter, as are the ids the
    application draws from the clock and a random number. */
module Generation {
  import opened CanvasTypes
  import opened Seqs
  import opened Editor

  /** A named aspect ratio and its width / height. */
  datatype Candidate = Candidate(name: AspectRatio, value: real)

  /** The ratios in the order they are tried. */
  const Candidates: seq<Candidate> := [
    Candidate(Ratio1x1, 1.0),
    Candidate(Ratio16x9, 16.0 / 9.0),
    Candidate(Ratio9x16, 9.0 / 16.0),
    Candidate(Ratio4x3, 4.0 / 3.0),
    Candidate(Ratio3x4, 3.0 / 4.0),
    Candidate(Ratio3x2, 3.0 / 2.0),
    Candidate(Ratio2x3, 2.0 / 3.0),
    Candidate(Ratio5x4, 5.0 / 4.0),
    Candidate(Ratio4x5, 4.0 / 5.0),
    Candidate(Ratio21x9, 21.0 / 9.0)]

  /** The largest relative difference still accepted as a match. */
  const Tolerance: real := 0.1

  /** Relative difference between `ratio` and candidate `k`. */
  function RelDiff(ratio: real, k: nat): (d: real)
    requires k < |Candidates|
    ensures d >= 0.0
    ensures d == 0.0 <==> ratio == Candidates[k].value
  {
    Abs(ratio - Candidates[k].value) / Candidates[k].value
  }

  /** The candidate the loop over the first `n` candidates settles on: it
      only moves to a later candidate that is strictly closer, so ties go to
      the earliest. */
  function BestIndex(ratio: real, n: nat): (b: nat)
    requires 1 <= n <= |Candidates|
    ensures b < n
    ensures forall j :: 0 <= j < n ==> RelDiff(ratio, b) <= RelDiff(ratio, j)
    ensures forall j :: 0 <= j < b ==> RelDiff(ratio, j) > RelDiff(ratio, b)
  {
    if n == 1 then 0
    else
      var b := BestIndex(ratio, n - 1);
      if RelDiff(ratio, n - 1) < RelDiff(ratio, b) then n - 1 else b
  }

  /** Candidate `k` is the nearest to `ratio`, and every earlier candidate
      is strictly farther. */
  predicate FirstNearest(ratio: real, k: nat)
    requires k < |Candidates|
  {
    && (forall j :: 0 <= j < |Candidates| ==> RelDiff(ratio, k) <= RelDiff(ratio, j))
    && (forall j :: 0 <= j < k ==> RelDiff(ratio, j) > RelDiff(ratio, k))
  }

  predicate NoneNear(ratio: real) {
    forall k :: 0 <= k < |Candidates| ==> RelDiff(ratio, k) > Tolerance
  }

  /** `toAspectRatioString`: the nearest named ratio (the earliest among
      equally near ones) if it is within 10%, and nothing for a zero width or
      height or when no ratio is near enough. */
  function ToAspectRatio(width: real, height: real): (r: Option<AspectRatio>)
    ensures width == 0.0 || height == 0.0 ==> r.None?
    ensures r.Some? ==> (width != 0.0 && height != 0.0 &&
      exists k :: 0 <= k < |Candidates| && Candidates[k].name == r.value
        && RelDiff(width / height, k) <= Tolerance && FirstNearest(width / height, k))
    ensures r.None? && width != 0.0 && height != 0.0 ==> NoneNear(width / height)
  {
    if width == 0.0 || height == 0.0 then None
    else
      var ratio := width / height;
      var b := BestIndex(ratio, |Candidates|);
      if RelDiff(ratio, b) <= Tolerance then Some(Candidates[b].name) else None
  }

  lemma CandidateValuesDistinct()
    ensures forall i, j :: 0 <= i < j < |Candidates| ==> Candidates[i].value != Candidates[j].value
  {
  }

  /** A size whose ratio is exactly a named one is labelled with that name. */
  lemma ExactRatioSelectsItsLabel(width: real, height: real, k: nat)
    requires width != 0.0 && height != 0.0 && k < |Candidates|
    requires width / height == Candidates[k].value
    ensures ToAspectRatio(width, height) == Some(Candidates[k].name)
  {
    var ratio := width / height;
    var b := BestIndex(ratio, |Candidates|);
    assert RelDiff(ratio, b) <= RelDiff(ratio, k) == 0.0;
    CandidateValuesDistinct();
    assert b == k;
  }

  /** Scaling both sides by the same non-zero factor keeps the label. */
  lemma AspectRatioScaleInvariant(width: real, height: real, c: real)
    requires c != 0.0
    ensures ToAspectRatio(c * width, c * height) == ToAspectRatio(width, height)
  {
    if width != 0.0 && height != 0.0 {
      assert (c * width) / (c * height) == width / height;
    }
  }

  /** The transparent one-pixel image a placeholder shows until the result
      arrives. */
  const PlaceholderSrc: string := "data:image/gif;base64,R0lGODlhAQABAIAAAAAAAP///yH5BAEAAAAALAAAAAABAAEAAAIBRAA7"

  /** Default side of a placeholder when no size is given. */
  const DefaultSide: real := 300.0

  /** The generation state `generateImage` and `handleRun` update. */
  datatype GenState = GenState(
    images: seq<PlacedImage>,
    activeGenerations: map<Id, ActiveGeneration>,
    isGenerating: bool)

  /** The ratio label a request carries: the fixed setting when there is
      one, otherwise the label inferred from the placeholder's size. */
  function RequestedAspect(settings: GenerationSettings, width: real, height: real): (r: Option<AspectRatio>)
    ensures (settings.aspectRatio.None? || settings.aspectRatio == Some(Auto)) ==> r == ToAspectRatio(width, height)
    ensures settings.aspectRatio.Some? && settings.aspectRatio.value.Fixed? ==>
      r == Some(settings.aspectRatio.value.ratio)
  {
    match settings.aspectRatio
    case Some(Fixed(a)) => Some(a)
    case _ => ToAspectRatio(width, height)
  }

  /** `generateImage`: append a placeholder image and record the request
      under the placeholder's id. A missing width or height is 300. */
  function GenerateImage(s: GenState, imageUrl: string, x: real, y: real, groupId: Id,
                         settings: GenerationSettings, width: Option<real>, height: Option<real>,
                         placeholderId: Id): (r: GenState)
    ensures |r.images| == |s.images| + 1 && r.images[..|s.images|] == s.images
    ensures var p := r.images[|s.images|];
      && p.id == placeholderId && p.src == PlaceholderSrc
      && p.x == x && p.y == y && p.rotation == 0.0
      && p.width == (if width.Some? then width.value else DefaultSide)
      && p.height == (if height.Some? then height.value else DefaultSide)
      && p.isGenerated == Some(true) && p.parentGroupId == Some(groupId)
      && p.cropX.None? && p.cropY.None? && p.cropWidth.None? && p.cropHeight.None?
    ensures r.activeGenerations.Keys == s.activeGenerations.Keys + {placeholderId}
    ensures r.activeGenerations[placeholderId] ==
      ActiveGeneration(imageUrl, settings.prompt,
        RequestedAspect(settings, r.images[|s.images|].width, r.images[|s.images|].height))
    ensures forall id :: id in s.activeGenerations && id != placeholderId ==>
      r.activeGenerations[id] == s.activeGenerations[id]
    ensures r.isGenerating == s.isGenerating
  {
    var w := if width.Some? then width.value else DefaultSide;
    var h := if height.Some? then height.value else DefaultSide;
    var p := PlacedImage(placeholderId, PlaceholderSrc, x, y, w, h, 0.0,
                         Some(true), Some(groupId), None, None, None, None);
    var images := s.images + [p];
    assert images[..|s.images|] == s.images;
    s.(images := images,
       activeGenerations := s.activeGenerations[placeholderId := ActiveGeneration(imageUrl, settings.prompt, RequestedAspect(settings, w, h))])
  }

  /** The crop extent of an image in source pixels. The source only
      multiplies when a crop extent differs from 1; the result is the same. */
  function EffectiveSize(natural: Size, cropWidth: real, cropHeight: real): (r: Size)
    ensures r == Size(cropWidth * natural.width, cropHeight * natural.height)
  {
    if cropWidth != 1.0 || cropHeight != 1.0 then
      Size(cropWidth * natural.width, cropHeight * natural.height)
    else natural
  }

  /** Longest side accepted for an uploaded source image. */
  const MaxSide: real := 4096.0

  /** The factor that brings the longer side down to 4096, or 1. */
  function UploadScale(s: Size): (k: real)
    ensures 0.0 < k <= 1.0
    ensures Max(s.width, s.height) <= MaxSide ==> k == 1.0
    ensures Max(s.width, s.height) > MaxSide ==> k * Max(s.width, s.height) == MaxSide
  {
    var longest := Max(s.width, s.height);
    if longest > MaxSide then MaxSide / longest else 1.0
  }

  /** The pixel size of the canvas the source is drawn into before upload. */
  function UploadSize(s: Size): (r: (int, int))
    ensures Max(s.width, s.height) <= MaxSide ==> r == (Round(s.width), Round(s.height))
  {
    var k := UploadScale(s);
    (Round(s.width * k), Round(s.height * k))
  }

  /** The capped size never exceeds 4096 on either side, the longer side of
      a large image becomes exactly 4096, and the shape is kept before
      rounding. */
  lemma UploadSizeCapped(s: Size)
    requires s.width >= 0.0 && s.height >= 0.0
    ensures UploadSize(s).0 <= 4096 && UploadSize(s).1 <= 4096
    ensures Max(s.width, s.height) > MaxSide ==>
      (if s.width >= s.height then UploadSize(s).0 else UploadSize(s).1) == 4096
  {
    var k := UploadScale(s);
    var longest := Max(s.width, s.height);
    assert s.width * k <= longest * k && s.height * k <= longest * k;
    assert longest * k <= MaxSide;
    if longest > MaxSide {
      RoundOfInteger(4096);
      if s.width >= s.height {
        assert s.width * k == 4096 as real;
      } else {
        assert s.height * k == 4096 as real;
      }
    }
  }

  /** What happened to one selected image: preparing it failed, uploading
      it failed (with or without a rate-limit response), or the upload
      answered with a URL, possibly empty. A failure of `fetch(dataUrl)`
      inside `uploadImageDirect` happens before its own error handling and
      is caught silently by the loop, so it is the same as an empty URL. */
  datatype UploadOutcome = ProcessingFailed | UploadFailed(rateLimited: bool) | Uploaded(url: string)

  /** The notices the run shows. */
  datatype Toast = NoPrompt | NoImageSelected | RateLimitExceeded | FailedToUpload | FailedToProcess

  /** A generation is started only for a non-empty URL. */
  predicate Succeeded(o: UploadOutcome) {
    o.Uploaded? && |o.url| > 0
  }

  /** The notice shown for one image: processing and upload failures each
      have their own; an empty URL is only logged. */
  function Notice(o: UploadOutcome): (n: seq<Toast>)
    ensures |n| <= 1
    ensures n == [] <==> o.Uploaded?
    ensures RateLimitExceeded in n <==> o == UploadFailed(true)
  {
    match o
    case ProcessingFailed => [FailedToProcess]
    case UploadFailed(rateLimited) => if rateLimited then [RateLimitExceeded] else [FailedToUpload]
    case Uploaded(_) => []
  }

  /** The inputs of one run: the selected images in canvas order, what
      happened to each, and the placeholder and group ids drawn for each. */
  datatype Run = Run(
    selected: seq<PlacedImage>,
    outcomes: seq<UploadOutcome>,
    pids: seq<Id>,
    gids: seq<Id>,
    settings: GenerationSettings)

  predicate WellFormed(run: Run) {
    |run.selected| == |run.outcomes| == |run.pids| == |run.gids|
  }

  /** Processing selected image `i`: a success starts a generation whose
      placeholder sits 20 px to the right of the source, level with it and
      of the same size. */
  function Step(run: Run, st: GenState, i: nat): (r: GenState)
    requires WellFormed(run) && i < |run.selected|
    ensures !Succeeded(run.outcomes[i]) ==> r == st
    ensures Succeeded(run.outcomes[i]) ==>
      var img := run.selected[i];
      && |r.images| == |st.images| + 1 && r.images[..|st.images|] == st.images
      && r.images[|st.images|] == PlaceholderImage(run.pids[i], img.x + img.width + 20.0, img.y, img.width, img.height, run.gids[i])
      && r.activeGenerations.Keys == st.activeGenerations.Keys + {run.pids[i]}
    ensures r.isGenerating == st.isGenerating
  {
    var o, img := run.outcomes[i], run.selected[i];
    if Succeeded(o) then
      GenerateImage(st, o.url, img.x + img.width + 20.0, img.y, run.gids[i], run.settings,
                    Some(img.width), Some(img.height), run.pids[i])
    else st
  }

  /** The state after the first `n` selected images are processed. */
  function Processed(run: Run, st: GenState, n: nat): (r: GenState)
    requires WellFormed(run) && n <= |run.selected|
    ensures r.isGenerating == st.isGenerating
  {
    if n == 0 then st else Step(run, Processed(run, st, n - 1), n - 1)
  }

  /** Number of successes among the first `n` outcomes. */
  function SuccessCount(outcomes: seq<UploadOutcome>, n: nat): (c: nat)
    requires n <= |outcomes|
    ensures c <= n
  {
    if n == 0 then 0 else SuccessCount(outcomes, n - 1) + (if Succeeded(outcomes[n - 1]) then 1 else 0)
  }

  /** Notices for the first `n` outcomes, in order. */
  function Notices(outcomes: seq<UploadOutcome>, n: nat): seq<Toast>
    requires n <= |outcomes|
  {
    if n == 0 then [] else Notices(outcomes, n - 1) + Notice(outcomes[n - 1])
  }

  /** A placeholder image as `generateImage` creates it. */
  function PlaceholderImage(id: Id, x: real, y: real, width: real, height: real, groupId: Id): PlacedImage {
    PlacedImage(id, PlaceholderSrc, x, y, width, height, 0.0, Some(true), Some(groupId), None, None, None, None)
  }

  /** The placeholders for the first `n` selected images: one per success,
      in the canvas order of the selected images. */
  function Placeholders(run: Run, n: nat): (r: seq<PlacedImage>)
    requires WellFormed(run) && n <= |run.selected|
    ensures |r| == SuccessCount(run.outcomes, n)
  {
    if n == 0 then []
    else
      var img := run.selected[n - 1];
      Placeholders(run, n - 1) +
        if Succeeded(run.outcomes[n - 1]) then
          [PlaceholderImage(run.pids[n - 1], img.x + img.width + 20.0, img.y, img.width, img.height, run.gids[n - 1])]
        else []
  }

  /** Processing appends exactly the placeholders to the images. */
  lemma {:induction false} ProcessedImages(run: Run, st: GenState, n: nat)
    requires WellFormed(run) && n <= |run.selected|
    ensures Processed(run, st, n).images == st.images + Placeholders(run, n)
  {
    if n > 0 {
      ProcessedImages(run, st, n - 1);
      var prev := Processed(run, st, n - 1);
      if Succeeded(run.outcomes[n - 1]) {
        var next := Processed(run, st, n);
        var p := next.images[|prev.images|];
        assert next.images == prev.images + [p];
        var img := run.selected[n - 1];
        assert p == PlaceholderImage(run.pids[n - 1], img.x + img.width + 20.0, img.y, img.width, img.height, run.gids[n - 1]);
      }
    }
  }

  /** After processing, a request is recorded under an id exactly when it
      was recorded before or is the placeholder id of a success. */
  lemma {:induction false} ProcessedRequestIds(run: Run, st: GenState, n: nat)
    requires WellFormed(run) && n <= |run.selected|
    ensures forall id :: id in Processed(run, st, n).activeGenerations <==>
      (id in st.activeGenerations || exists k :: 0 <= k < n && Succeeded(run.outcomes[k]) && run.pids[k] == id)
  {
    if n > 0 {
      ProcessedRequestIds(run, st, n - 1);
    }
  }

  /** With distinct placeholder ids, each success's request carries its
      upload URL, the prompt, and the ratio for the source's size. */
  lemma {:induction false} ProcessedRequests(run: Run, st: GenState, n: nat)
    requires WellFormed(run) && n <= |run.selected| && NoDup(run.pids)
    ensures forall k :: 0 <= k < n && Succeeded(run.outcomes[k]) ==>
      run.pids[k] in Processed(run, st, n).activeGenerations &&
      Processed(run, st, n).activeGenerations[run.pids[k]] ==
        ActiveGeneration(run.outcomes[k].url, run.settings.prompt,
          RequestedAspect(run.settings, run.selected[k].width, run.selected[k].height))
  {
    if n > 0 {
      ProcessedRequests(run, st, n - 1);
      forall k | 0 <= k < n - 1 ensures run.pids[k] != run.pids[n - 1] {
      }
    }
  }

  /** `p` is the placeholder of selected image `k`: it carries that image's
      ids, sits 20 px to its right, level with it, and has its size. */
  predicate PlacedBeside(p: PlacedImage, run: Run, k: nat)
    requires WellFormed(run) && k < |run.selected|
  {
    var img := run.selected[k];
    && p.id == run.pids[k] && p.parentGroupId == Some(run.gids[k])
    && p.x == img.x + img.width + 20.0 && p.y == img.y
    && p.width == img.width && p.height == img.height
  }

  /** A placeholder sits 20 px to the right of its source image, level with
      it and of the same size, and carries that image's placeholder id. */
  lemma {:induction false} PlaceholderBesideSource(run: Run, n: nat, j: nat)
    requires WellFormed(run) && n <= |run.selected|
    requires j < |Placeholders(run, n)|
    ensures exists k :: 0 <= k < n && Succeeded(run.outcomes[k]) && PlacedBeside(Placeholders(run, n)[j], run, k)
  {
    var prev := Placeholders(run, n - 1);
    if j < |prev| {
      PlaceholderBesideSource(run, n - 1, j);
      assert Placeholders(run, n)[j] == prev[j];
    } else {
      assert Succeeded(run.outcomes[n - 1]);
    }
  }

  /** `handleRun`: with an empty prompt only a notice is shown. Otherwise
      generation is flagged while the selected images are processed one by
      one, each success adding a placeholder beside its source and a
      recorded request, and the flag is cleared at the end. */
  method HandleRun(s: GenState, selectedIds: seq<Id>, settings: GenerationSettings,
                   outcomes: seq<UploadOutcome>, pids: seq<Id>, gids: seq<Id>)
    returns (r: GenState, toasts: seq<Toast>, successes: nat, failures: nat)
    requires |outcomes| == |pids| == |gids| == |SelectedImages(s.images, selectedIds)|
    ensures |settings.prompt| == 0 ==> r == s && toasts == [NoPrompt]
    ensures |settings.prompt| > 0 && |outcomes| == 0 ==>
      r == s.(isGenerating := false) && toasts == [NoImageSelected]
    ensures |settings.prompt| > 0 ==> !r.isGenerating
    ensures |settings.prompt| > 0 && |outcomes| > 0 ==> toasts == Notices(outcomes, |outcomes|)
    ensures successes + failures == (if |settings.prompt| == 0 then 0 else |outcomes|)
    ensures successes == (if |settings.prompt| == 0 then 0 else SuccessCount(outcomes, |outcomes|))
    ensures |settings.prompt| > 0 ==>
      r.images == s.images + Placeholders(Run(SelectedImages(s.images, selectedIds), outcomes, pids, gids, settings), |outcomes|)
    ensures |settings.prompt| > 0 ==> forall id :: id in r.activeGenerations <==>
      (id in s.activeGenerations || exists k :: 0 <= k < |outcomes| && Succeeded(outcomes[k]) && pids[k] == id)
    ensures |settings.prompt| > 0 && NoDup(pids) ==> forall k :: 0 <= k < |outcomes| && Succeeded(outcomes[k]) ==>
      var img := SelectedImages(s.images, selectedIds)[k];
      r.activeGenerations[pids[k]] == ActiveGeneration(outcomes[k].url, settings.prompt, RequestedAspect(settings, img.width, img.height))
  {
    if |settings.prompt| == 0 {
      return s, [NoPrompt], 0, 0;
    }
    var selected := SelectedImages(s.images, selectedIds);
    if |selected| == 0 {
      return s.(isGenerating := false), [NoImageSelected], 0, 0;
    }
    var run := Run(selected, outcomes, pids, gids, settings);
    var start := s.(isGenerating := true);
    r, toasts, successes, failures := ProcessAll(run, start);
    ProcessedImages(run, start, |selected|);
    ProcessedRequestIds(run, start, |selected|);
    if NoDup(pids) {
      ProcessedRequests(run, start, |selected|);
    }
    r := r.(isGenerating := false);
  }

  /** The loop of `handleRun` over the selected images. */
  method ProcessAll(run: Run, start: GenState) returns (r: GenState, toasts: seq<Toast>, successes: nat, failures: nat)
    requires WellFormed(run)
    ensures r == Processed(run, start, |run.selected|)
    ensures toasts == Notices(run.outcomes, |run.selected|)
    ensures successes == SuccessCount(run.outcomes, |run.selected|)
    ensures successes + failures == |run.selected|
  {
    r, toasts, successes, failures := start, [], 0, 0;
    var i := 0;
    while i < |run.selected|
      invariant 0 <= i <= |run.selected|
      invariant successes + failures == i && successes == SuccessCount(run.outcomes, i)
      invariant toasts == Notices(run.outcomes, i)
      invariant r == Processed(run, start, i)
    {
      var o := run.outcomes[i];
      toasts := toasts + Notice(o);
      r := Step(run, r, i);
      if Succeeded(o) {
        successes := successes + 1;
      } else {
        failures := failures + 1;
      }
      i := i + 1;
    }
  }
}

=== FILE: history.dfy ===
/** The linear undo/redo history of the editor page (src/app/page.tsx,
    `saveToHistory`, `undo`, `redo`). The history is a list of snapshots and
    an index into it; saving discards every entry after the index. */
module History {
  import opened CanvasTypes
  import opened Editor

  function Snapshot(c: Canvas): HistoryState {
    HistoryState(c.images, Some(c.videos), c.selectedIds)
  }

  /** Restoring an entry; entries without a video list restore no videos. */
  function Restore(h: HistoryState): (c: Canvas)
    ensures c.images == h.images && c.selectedIds == h.selectedIds
    ensures h.videos.None? ==> c.videos == []
    ensures h.videos.Some? ==> c.videos == h.videos.value
  {
    Canvas(h.images, if h.videos.Some? then h.videos.value else [], h.selectedIds)
  }

  /** JavaScript `s.slice(0, end)`: a negative end counts from the back and
      an end past the length is clamped. */
  function SliceTo<T>(s: seq<T>, end: int): (r: seq<T>)
    ensures 0 <= end <= |s| ==> r == s[..end]
    ensures end > |s| ==> r == s
    ensures end < 0 && |s| + end >= 0 ==> r == s[..|s| + end]
    ensures |s| + end < 0 ==> r == []
  {
    if end < 0 then (if |s| + end < 0 then [] else s[..|s| + end])
    else if end > |s| then s
    else s[..end]
  }

  /** The index points at an entry, or is -1 before the first save. */
  predicate ValidIndex(e: Editor) {
    -1 <= e.historyIndex < |e.history|
  }

  /** `saveToHistory`: drop the entries after the index, append a snapshot
      of the canvas and point the index at it. */
  function SaveToHistory(e: Editor): (r: Editor)
    ensures ValidIndex(r) && 0 <= r.historyIndex == |r.history| - 1
    ensures r.history[r.historyIndex] == Snapshot(e.canvas)
    ensures ValidIndex(e) ==> r.history == e.history[..e.historyIndex + 1] + [Snapshot(e.canvas)]
    ensures r == e.(history := r.history, historyIndex := r.historyIndex)
  {
    var h := SliceTo(e.history, e.historyIndex + 1) + [Snapshot(e.canvas)];
    e.(history := h, historyIndex := |h| - 1)
  }

  /** `undo`: a no-op at index 0 or below, otherwise restore the previous
      entry. Reading entry index-1 needs it to exist. */
  function Undo(e: Editor): (r: Editor)
    requires e.historyIndex <= |e.history|
    ensures e.historyIndex <= 0 ==> r == e
    ensures e.historyIndex > 0 ==> r.historyIndex == e.historyIndex - 1
    ensures e.historyIndex > 0 ==> r.canvas == Restore(e.history[e.historyIndex - 1])
    ensures r.history == e.history
    ensures r == e.(canvas := r.canvas, historyIndex := r.historyIndex)
    ensures ValidIndex(e) ==> ValidIndex(r)
  {
    if e.historyIndex > 0 then
      e.(canvas := Restore(e.history[e.historyIndex - 1]), historyIndex := e.historyIndex - 1)
    else e
  }

  /** `redo`: a no-op at the last entry or beyond, otherwise restore the
      next entry. Reading entry index+1 needs the index to be at least -1. */
  function Redo(e: Editor): (r: Editor)
    requires e.historyIndex >= -1
    ensures e.historyIndex >= |e.history| - 1 ==> r == e
    ensures e.historyIndex < |e.history| - 1 ==> r.historyIndex == e.historyIndex + 1
    ensures e.historyIndex < |e.history| - 1 ==> r.canvas == Restore(e.history[e.historyIndex + 1])
    ensures r.history == e.history
    ensures r == e.(canvas := r.canvas, historyIndex := r.historyIndex)
    ensures ValidIndex(e) ==> ValidIndex(r)
  {
    if e.historyIndex < |e.history| - 1 then
      e.(canvas := Restore(e.history[e.historyIndex + 1]), historyIndex := e.historyIndex + 1)
    else e
  }

  /** The mount effect: save the initial state when the history is empty. */
  function Mount(e: Editor): (r: Editor)
    ensures |e.history| == 0 ==> r.history == [Snapshot(e.canvas)] && r.historyIndex == 0
    ensures r.canvas == e.canvas
    ensures |e.history| > 0 ==> r == e
  {
    if |e.history| == 0 then SaveToHistory(e) else e
  }

  /** The canvas shows the entry the index points at. */
  predicate Synced(e: Editor) {
    && ValidIndex(e)
    && e.historyIndex >= 0
    && e.canvas == Restore(e.history[e.historyIndex])
  }

  lemma RestoreSnapshot(c: Canvas)
    ensures Restore(Snapshot(c)) == c
  {
  }

  /** After mounting, the page is in sync with its one history entry. */
  lemma MountedIsSynced()
    ensures Synced(Mount(Initial))
  {
    RestoreSnapshot(Initial.canvas);
  }

  /** Undo then redo returns to the entry the index pointed at. */
  lemma RedoAfterUndo(e: Editor)
    requires ValidIndex(e) && e.historyIndex > 0
    ensures Redo(Undo(e)) == e.(canvas := Restore(e.history[e.historyIndex]))
    ensures Synced(e) ==> Redo(Undo(e)) == e
  {
  }

  /** Redo then undo returns to the entry the index pointed at. */
  lemma UndoAfterRedo(e: Editor)
    requires ValidIndex(e) && 0 <= e.historyIndex < |e.history| - 1
    ensures Undo(Redo(e)) == e.(canvas := Restore(e.history[e.historyIndex]))
    ensures Synced(e) ==> Undo(Redo(e)) == e
  {
  }

  /** A save leaves nothing to redo. */
  lemma NothingToRedoAfterSave(e: Editor)
    ensures Redo(SaveToHistory(e)) == SaveToHistory(e)
  {
  }

  /** Undo and redo keep the canvas in sync with the history. */
  lemma UndoRedoKeepSynced(e: Editor)
    requires Synced(e)
    ensures Synced(Undo(e)) && Synced(Redo(e))
  {
  }

  /** An edit as the page performs it: save a checkpoint of the state BEFORE
      the change, then install the changed canvas. */
  function CheckpointThenApply(e: Editor, c: Canvas): (r: Editor)
    ensures ValidIndex(r) && 0 <= r.historyIndex == |r.history| - 1
    ensures r.history[r.historyIndex] == Snapshot(e.canvas)
    ensures ValidIndex(e) ==> r.history == e.history[..e.historyIndex + 1] + [Snapshot(e.canvas)]
    ensures r.canvas == c
    ensures r == e.(canvas := c, history := r.history, historyIndex := r.historyIndex)
  {
    SaveToHistory(e).(canvas := c)
  }

  /** From a page in sync with its history, one undo reverts a checkpointed
      edit: the checkpoint is exactly the state before it. */
  lemma UndoRevertsCheckpoint(e: Editor, c: Canvas)
    requires Synced(e)
    ensures Undo(CheckpointThenApply(e, c)).canvas == e.canvas
    ensures Undo(CheckpointThenApply(e, c)).historyIndex == e.historyIndex
  {
    var r := CheckpointThenApply(e, c);
    assert r.history[e.historyIndex] == e.history[e.historyIndex] by {
      assert (e.history[..e.historyIndex + 1] + [Snapshot(e.canvas)])[e.historyIndex] == e.history[e.historyIndex];
    }
  }

  /** Redo cannot replay a checkpointed edit: the edited canvas was never
      saved, so undo followed by redo shows the state before the edit. */
  lemma RedoAfterUndoLosesEdit(e: Editor, c: Canvas)
    requires Synced(e)
    ensures Redo(Undo(CheckpointThenApply(e, c))).canvas == e.canvas
    ensures c != e.canvas ==> Redo(Undo(CheckpointThenApply(e, c))).canvas != c
  {
    UndoRevertsCheckpoint(e, c);
    RestoreSnapshot(e.canvas);
  }

  /** With checkpoints taken before each edit, undo after two edits skips the
      intermediate state: from S0, edits to S1 and then S2 are undone straight
      back to S0. */
  lemma UndoSkipsIntermediateState()
    ensures
      var s0 := Canvas([], [], []);
      var s1 := Canvas([], [], ["a"]);
      var s2 := Canvas([], [], ["b"]);
      var e := CheckpointThenApply(CheckpointThenApply(Mount(Initial), s1), s2);
      Undo(e).canvas == s0 && s0 != s1
  {
    var s0 := Canvas([], [], []);
    var s1 := Canvas([], [], ["a"]);
    var s2 := Canvas([], [], ["b"]);
    var m := Mount(Initial);
    assert m.history == [Snapshot(s0)] && m.historyIndex == 0;
    var e1 := CheckpointThenApply(m, s1);
    assert |e1.history| == 2 && e1.history[1] == Snapshot(s0);
    var e2 := CheckpointThenApply(e1, s2);
    assert e2.history[..2][1] == e1.history[..2][1];
    RestoreSnapshot(s0);
    assert s1.selectedIds[0] == "a";
  }

  /** An edit that saves the state AFTER the change, so that the entry at
      the index is always the canvas on screen. */
  function Commit(e: Editor, c: Canvas): (r: Editor)
    ensures Synced(r)
    ensures r.canvas == c && r.historyIndex == |r.history| - 1
    ensures ValidIndex(e) ==> r.history == e.history[..e.historyIndex + 1] + [Snapshot(c)]
    ensures r == e.(canvas := c, history := r.history, historyIndex := r.historyIndex)
  {
    RestoreSnapshot(c);
    SaveToHistory(e.(canvas := c))
  }

  /** Undo reverts any committed edit, and redo replays it. */
  lemma UndoRevertsCommit(e: Editor, c: Canvas)
    requires Synced(e)
    ensures Undo(Commit(e, c)).canvas == e.canvas
    ensures Undo(Commit(e, c)) == e.(history := Commit(e, c).history)
    ensures Redo(Undo(Commit(e, c))) == Commit(e, c)
  {
    var r := Commit(e, c);
    assert r.history[e.historyIndex] == e.history[e.historyIndex] by {
      assert (e.history[..e.historyIndex + 1] + [Snapshot(c)])[e.historyIndex] == e.history[e.historyIndex];
    }
  }

  /** Two committed edits are undone one at a time. */
  lemma UndoStepsBackOneEdit()
    ensures
      var s0 := Canvas([], [], []);
      var s1 := Canvas([], [], ["a"]);
      var s2 := Canvas([], [], ["b"]);
      Undo(Commit(Commit(Mount(Initial), s1), s2)).canvas == s1
  {
    var s1 := Canvas([], [], ["a"]);
    var s2 := Canvas([], [], ["b"]);
    MountedIsSynced();
    var e1 := Commit(Mount(Initial), s1);
    UndoRevertsCommit(e1, s2);
  }
}

=== FILE: keyboard.dfy ===
/** Keyboard shortcuts of the editor page (src/app/page.tsx, `handleKeyDown`):
    which command a key press triggers. The conditions are tried in a fixed
    order and the first that matches decides, even when its own guard then
    does nothing. */
module Keyboard {

  datatype Command =
    | Undo | Redo | SelectAll | Delete | Duplicate | Run
    | ToFront | Forward | ToBack | Backward
    | ExitCrop | ZoomIn | ZoomOut | ResetZoom
    | NoCommand

  /** A key press and the editor state its guards read. `command` is Meta
      or Ctrl; `inInput` means the event comes from an input or text area. */
  datatype KeyPress = KeyPress(
    key: string,
    command: bool,
    shift: bool,
    inInput: bool)

  /** `promptBlank` stands for an empty `prompt.trim()`. */
  datatype Guards = Guards(
    hasSelection: bool,
    isGenerating: bool,
    promptBlank: bool,
    cropping: bool)

  /** `handleKeyDown`'s chain of conditions. */
  function Decode(k: KeyPress, g: Guards): (c: Command)
    ensures k.inInput ==> c in {Undo, Redo, ExitCrop, ResetZoom, NoCommand}
    ensures k.command && k.key == "z" && !k.shift ==> c == Undo
    ensures k.command && (k.key == "y" || (k.key == "z" && k.shift)) ==> c == Redo
    ensures c in {Delete, Duplicate, ToFront, Forward, ToBack, Backward} ==> g.hasSelection
    ensures c == Run ==> !g.isGenerating && !g.promptBlank
    ensures c == ExitCrop ==> g.cropping && k.key == "Escape"
    ensures k.command && k.key == "a" && !k.inInput ==> c == SelectAll
    ensures (k.key == "Delete" || k.key == "Backspace") && !k.inInput && g.hasSelection ==> c == Delete
    ensures k.command && k.key == "d" && !k.inInput && g.hasSelection ==> c == Duplicate
    ensures k.command && k.key == "Enter" && !k.inInput && !g.isGenerating && !g.promptBlank ==> c == Run
    ensures k.key == "Escape" && g.cropping ==> c == ExitCrop
  {
    assert "a" != "z" && "a" != "y";
    assert "Delete" != "z" && "Delete" != "y" && "Delete" != "a";
    assert "Backspace" != "z" && "Backspace" != "y" && "Backspace" != "a";
    assert "d" != "z" && "d" != "y" && "d" != "a" && "d" != "Delete" && "d" != "Backspace";
    assert "Enter" != "z" && "Enter" != "y" && "Enter" != "a" && "Enter" != "d";
    assert "Enter" != "Delete" && "Enter" != "Backspace";
    assert "Escape" != "z" && "Escape" != "y" && "Escape" != "a" && "Escape" != "d" && "Escape" != "Enter";
    assert "Escape" != "Delete" && "Escape" != "Backspace" && "Escape" != "]" && "Escape" != "[";
    var notInput := !k.inInput;
    if k.command && k.key == "z" && !k.shift then Undo
    else if k.command && ((k.key == "z" && k.shift) || k.key == "y") then Redo
    else if k.command && k.key == "a" && notInput then SelectAll
    else if (k.key == "Delete" || k.key == "Backspace") && notInput then
      if g.hasSelection then Delete else NoCommand
    else if k.command && k.key == "d" && notInput then
      if g.hasSelection then Duplicate else NoCommand
    else if k.command && k.key == "Enter" && notInput then
      if !g.isGenerating && !g.promptBlank then Run else NoCommand
    else if k.key == "]" && notInput then
      if !g.hasSelection then NoCommand else if k.command then ToFront else Forward
    else if k.key == "[" && notInput then
      if !g.hasSelection then NoCommand else if k.command then ToBack else Backward
    else if k.key == "Escape" && g.cropping then ExitCrop
    else if (k.key == "+" || k.key == "=") && notInput then ZoomIn
    else if k.key == "-" && notInput then ZoomOut
    else if k.key == "0" && k.command then ResetZoom
    else NoCommand
  }

  /** The layer keys: `]` raises and `[` lowers the selection, one step, or
      all the way with Meta/Ctrl held. */
  lemma LayerKeys(k: KeyPress, g: Guards)
    requires !k.inInput && g.hasSelection
    ensures k.key == "]" ==> Decode(k, g) == (if k.command then ToFront else Forward)
    ensures k.key == "[" ==> Decode(k, g) == (if k.command then ToBack else Backward)
  {
    assert "]" != "z" && "]" != "y" && "]" != "a" && "]" != "d";
    assert "[" != "z" && "[" != "y" && "[" != "a" && "[" != "d";
    assert "]" != "Delete" && "]" != "Backspace" && "]" != "Enter";
    assert "[" != "Delete" && "[" != "Backspace" && "[" != "Enter" && "[" != "]";
  }

  /** The zoom keys work without a modifier whenever focus is outside a
      text field; Meta/Ctrl-0 resets the zoom even inside one. */
  lemma ZoomKeys(k: KeyPress, g: Guards)
    ensures !k.inInput && (k.key == "+" || k.key == "=") ==> Decode(k, g) == ZoomIn
    ensures !k.inInput && k.key == "-" ==> Decode(k, g) == ZoomOut
    ensures k.command && k.key == "0" ==> Decode(k, g) == ResetZoom
  {
    assert "+" != "z" && "+" != "y" && "+" != "a" && "+" != "d" && "+" != "Enter";
    assert "=" != "z" && "=" != "y" && "=" != "a" && "=" != "d" && "=" != "Enter";
    assert "-" != "z" && "-" != "y" && "-" != "a" && "-" != "d" && "-" != "Enter";
    assert "0" != "z" && "0" != "y" && "0" != "a" && "0" != "d" && "0" != "Enter";
    assert "+" != "Delete" && "+" != "Backspace" && "+" != "Escape" && "+" != "]" && "+" != "[";
    assert "=" != "Delete" && "=" != "Backspace" && "=" != "Escape" && "=" != "]" && "=" != "[";
    assert "-" != "Delete" && "-" != "Backspace" && "-" != "Escape" && "-" != "]" && "-" != "[";
    assert "0" != "Delete" && "0" != "Backspace" && "0" != "Escape" && "0" != "]" && "0" != "[";
    assert "0" != "+" && "0" != "=" && "0" != "-";
  }
}

=== FILE: layering.dfy ===
/** Layer order on the editor page (src/app/page.tsx, `sendToFront`,
    `sendToBack`, `bringForward`, `sendBackward`). The image list is drawn
    first to last, so the end of the list is the top layer. */
module Layering {
  import opened CanvasTypes
  import opened Seqs
  import opened Editor
  import History

  /** Whether an id names an image in the list. */
  function PresentIn(images: seq<PlacedImage>): Id -> bool {
    (id: Id) => Find(images, id).Some?
  }

  lemma ImageIdsConcat(a: seq<PlacedImage>, b: seq<PlacedImage>)
    ensures ImageIds(a + b) == ImageIds(a) + ImageIds(b)
  {
  }

  /** `selectedIds.map(id => images.find(img => img.id === id)).filter(Boolean)`:
      for each selected id in selection order, the first image carrying it. */
  function Picked(sel: seq<Id>, images: seq<PlacedImage>): (r: seq<PlacedImage>)
    ensures forall x :: x in r ==> x in images && x.id in sel
    decreases |sel|
  {
    if |sel| == 0 then []
    else
      var rest := Picked(sel[1..], images);
      assert forall x :: x in rest ==> x.id in sel by {
        forall x | x in rest ensures x.id in sel {
          var k :| 0 <= k < |sel[1..]| && sel[1..][k] == x.id;
          assert sel[k + 1] == x.id;
        }
      }
      match Find(images, sel[0])
      case Some(img) => [img] + rest
      case None => rest
  }

  /** The ids of the picked images are the selected ids that name an image,
      in selection order. */
  lemma {:induction false} PickedIds(sel: seq<Id>, images: seq<PlacedImage>)
    ensures ImageIds(Picked(sel, images)) == Filter(sel, PresentIn(images))
    decreases |sel|
  {
    if |sel| > 0 {
      PickedIds(sel[1..], images);
      var rest := Picked(sel[1..], images);
      match Find(images, sel[0])
      case Some(img) => ImageIdsConcat([img], rest);
      case None =>
    }
  }

  /** With distinct image ids and a duplicate-free selection, every selected
      image is picked exactly once and nothing else is picked. */
  lemma {:induction false} PickedCount(sel: seq<Id>, images: seq<PlacedImage>, x: PlacedImage)
    requires UniqueImageIds(images) && NoDup(sel)
    ensures multiset(Picked(sel, images))[x] == if x in images && x.id in sel then 1 else 0
    decreases |sel|
  {
    if |sel| > 0 {
      assert sel == [sel[0]] + sel[1..];
      assert NoDup(sel[1..]) by {
        forall i, j | 0 <= i < j < |sel[1..]| ensures sel[1..][i] != sel[1..][j] {
          assert sel[1..][i] == sel[i + 1] && sel[1..][j] == sel[j + 1];
        }
      }
      PickedCount(sel[1..], images, x);
      var f := Find(images, sel[0]);
      if f.Some? && f.value == x {
        assert x.id == sel[0];
        assert x.id !in sel[1..] by {
          forall k | 0 <= k < |sel[1..]| ensures sel[1..][k] != x.id {
            assert sel[1..][k] == sel[k + 1];
          }
        }
      }
    }
  }

  /** The selected images present in `images` are all selected. */
  lemma PickedSelected(sel: seq<Id>, images: seq<PlacedImage>)
    ensures forall i :: 0 <= i < |Picked(sel, images)| ==> !ImageNotIn(sel)(Picked(sel, images)[i])
  {
    var top := Picked(sel, images);
    forall i | 0 <= i < |top| ensures !ImageNotIn(sel)(top[i]) {
      assert top[i] in top;
    }
  }

  /** `sendToFront`: the unselected images keep their order and the selected
      ones go on top in selection order. A no-op for an empty selection. */
  function SendToFront(images: seq<PlacedImage>, sel: seq<Id>): (r: seq<PlacedImage>)
    ensures |sel| == 0 ==> r == images
    ensures |sel| > 0 ==>
      var k := |Filter(images, ImageNotIn(sel))|;
      && k <= |r|
      && Filter(r, ImageNotIn(sel)) == Filter(images, ImageNotIn(sel))
      && (forall i :: 0 <= i < k ==> r[i].id !in sel)
      && (forall i :: k <= i < |r| ==> r[i].id in sel)
      && ImageIds(r[k..]) == Filter(sel, PresentIn(images))
  {
    if |sel| == 0 then images
    else
      var rest := Filter(images, ImageNotIn(sel));
      var top := Picked(sel, images);
      PickedIds(sel, images);
      PickedSelected(sel, images);
      FilterOfSplit(rest, top, ImageNotIn(sel));
      assert (rest + top)[|rest|..] == top;
      rest + top
  }

  /** `sendToBack`: the selected images go to the bottom in selection order,
      followed by the unselected ones in their order. A no-op for an empty
      selection. */
  function SendToBack(images: seq<PlacedImage>, sel: seq<Id>): (r: seq<PlacedImage>)
    ensures |sel| == 0 ==> r == images
    ensures |sel| > 0 ==>
      var k := |r| - |Filter(images, ImageNotIn(sel))|;
      && 0 <= k
      && Filter(r, ImageNotIn(sel)) == Filter(images, ImageNotIn(sel))
      && (forall i :: 0 <= i < k ==> r[i].id in sel)
      && (forall i :: k <= i < |r| ==> r[i].id !in sel)
      && ImageIds(r[..k]) == Filter(sel, PresentIn(images))
  {
    if |sel| == 0 then images
    else
      var rest := Filter(images, ImageNotIn(sel));
      var bottom := Picked(sel, images);
      PickedIds(sel, images);
      PickedSelected(sel, images);
      FilterOfSplit(rest, bottom, ImageNotIn(sel));
      assert (bottom + rest)[..|bottom|] == bottom;
      bottom + rest
  }

  /** Counting argument shared by both whole-selection moves: the unselected
      images and the picked ones together are the images. */
  lemma SplitCounts(images: seq<PlacedImage>, sel: seq<Id>)
    requires UniqueImageIds(images) && NoDup(sel)
    ensures multiset(Filter(images, ImageNotIn(sel))) + multiset(Picked(sel, images)) == multiset(images)
  {
    UniqueIdsNoDup(images);
    FilterMultiset(images, ImageNotIn(sel));
    forall x ensures (multiset(Filter(images, ImageNotIn(sel))) + multiset(Picked(sel, images)))[x] == multiset(images)[x] {
      NoDupCount(images, x);
      PickedCount(sel, images, x);
    }
  }

  /** With distinct image ids and a duplicate-free selection, sending to
      the front or to the back only reorders the images. */
  lemma SendToFrontBackPermute(images: seq<PlacedImage>, sel: seq<Id>)
    requires UniqueImageIds(images) && NoDup(sel)
    ensures multiset(SendToFront(images, sel)) == multiset(images)
    ensures multiset(SendToBack(images, sel)) == multiset(images)
  {
    if |sel| > 0 {
      var rest, picked := Filter(images, ImageNotIn(sel)), Picked(sel, images);
      SplitCounts(images, sel);
      assert SendToFront(images, sel) == rest + picked;
      assert SendToBack(images, sel) == picked + rest;
      assert multiset(rest + picked) == multiset(rest) + multiset(picked);
      assert multiset(picked + rest) == multiset(picked) + multiset(rest);
    }
  }

  /** `find` gives the same answer on a list that holds the same images
      carrying the ids asked for. */
  lemma FindAgrees(a: seq<PlacedImage>, b: seq<PlacedImage>, id: Id)
    requires UniqueImageIds(a)
    requires forall x :: x in b ==> x in a
    requires Find(a, id).Some? ==> Find(a, id).value in b
    ensures Find(b, id) == Find(a, id)
  {
    if Find(b, id).Some? {
      var y := Find(b, id).value;
      assert y in a;
      var k :| 0 <= k < |a| && a[k] == y;
      FindUnique(a, k);
    }
  }

  lemma {:induction false} PickedAgrees(sel: seq<Id>, a: seq<PlacedImage>, b: seq<PlacedImage>)
    requires forall j :: 0 <= j < |sel| ==> Find(a, sel[j]) == Find(b, sel[j])
    ensures Picked(sel, a) == Picked(sel, b)
    decreases |sel|
  {
    if |sel| > 0 {
      PickedAgrees(sel[1..], a, b);
    }
  }

  /** A picked image and an image carrying a selected id are the same. */
  lemma PickedHoldsSelected(sel: seq<Id>, images: seq<PlacedImage>, x: PlacedImage)
    requires UniqueImageIds(images) && NoDup(sel)
    requires x in images && x.id in sel
    ensures x in Picked(sel, images)
  {
    PickedCount(sel, images, x);
  }

  /** Sending the selection to the front twice is the same as once, and so
      is sending it to the back twice. */
  lemma SendToFrontBackIdempotent(images: seq<PlacedImage>, sel: seq<Id>)
    requires UniqueImageIds(images) && NoDup(sel)
    ensures SendToFront(SendToFront(images, sel), sel) == SendToFront(images, sel)
    ensures SendToBack(SendToBack(images, sel), sel) == SendToBack(images, sel)
  {
    if |sel| > 0 {
      var rest := Filter(images, ImageNotIn(sel));
      var picked := Picked(sel, images);
      forall j | 0 <= j < |sel|
        ensures Find(rest + picked, sel[j]) == Find(images, sel[j])
        ensures Find(picked + rest, sel[j]) == Find(images, sel[j])
      {
        if Find(images, sel[j]).Some? {
          PickedHoldsSelected(sel, images, Find(images, sel[j]).value);
        }
        FindAgrees(images, rest + picked, sel[j]);
        FindAgrees(images, picked + rest, sel[j]);
      }
      PickedAgrees(sel, rest + picked, images);
      PickedAgrees(sel, picked + rest, images);
      FilterConcat(rest, picked, ImageNotIn(sel));
      FilterConcat(picked, rest, ImageNotIn(sel));
      FilterTwice(images, ImageNotIn(sel));
      FilterDropsAll(picked, ImageNotIn(sel));
    }
  }

  /** `origin[k]` is the position in `images` that the image now at `k`
      came from, and no two positions came from the same place. */
  ghost predicate Traced(images: seq<PlacedImage>, r: seq<PlacedImage>, origin: seq<int>) {
    && |r| == |images| && |origin| == |r|
    && (forall k {:trigger origin[k]} :: 0 <= k < |r| ==> 0 <= origin[k] < |images| && r[k] == images[origin[k]])
    && (forall a, b :: 0 <= a < b < |r| ==> origin[a] != origin[b])
  }

  /** What both one-step layer moves keep: the images are a traced
      rearrangement of the original ones, and the selected and unselected
      images each keep their relative order. */
  ghost predicate Rearranged(images: seq<PlacedImage>, sel: seq<Id>, r: seq<PlacedImage>, origin: seq<int>) {
    && Traced(images, r, origin)
    && multiset(r) == multiset(images)
    && Filter(r, ImageIn(sel)) == Filter(images, ImageIn(sel))
    && Filter(r, ImageNotIn(sel)) == Filter(images, ImageNotIn(sel))
  }

  /** The positions 0 .. n-1 in order: every image where it started. */
  function Unmoved(n: nat): (r: seq<int>)
    ensures |r| == n && forall k :: 0 <= k < n ==> r[k] == k
  {
    seq(n, k => k)
  }

  lemma UnmovedRearranged(images: seq<PlacedImage>, sel: seq<Id>)
    ensures Rearranged(images, sel, images, Unmoved(|images|))
  {
  }

  lemma SwapTraced(images: seq<PlacedImage>, r: seq<PlacedImage>, origin: seq<int>, i: nat)
    requires Traced(images, r, origin) && i + 1 < |r|
    ensures Traced(images, Swap(r, i), Swap(origin, i))
  {
    var r', o' := Swap(r, i), Swap(origin, i);
    forall k | 0 <= k < |r'| ensures 0 <= o'[k] < |images| && r'[k] == images[o'[k]] {
      var k0 := if k == i then i + 1 else if k == i + 1 then i else k;
      assert o'[k] == origin[k0] && r'[k] == r[k0];
    }
    forall a, b | 0 <= a < b < |r'| ensures o'[a] != o'[b] {
      var a0 := if a == i then i + 1 else if a == i + 1 then i else a;
      var b0 := if b == i then i + 1 else if b == i + 1 then i else b;
      assert o'[a] == origin[a0] && o'[b] == origin[b0] && a0 != b0;
    }
  }

  /** Exchanging two neighbours, exactly one of them selected, keeps the
      images a rearrangement of the original ones. */
  lemma SwapRearranges(images: seq<PlacedImage>, sel: seq<Id>, r: seq<PlacedImage>, origin: seq<int>, i: nat)
    requires Rearranged(images, sel, r, origin) && i + 1 < |r|
    requires (r[i].id in sel) != (r[i + 1].id in sel)
    ensures Rearranged(images, sel, Swap(r, i), Swap(origin, i))
  {
    SwapTraced(images, r, origin, i);
    SwapKeepsFilter(r, i, ImageIn(sel));
    SwapKeepsFilter(r, i, ImageNotIn(sel));
  }

  /** How far images have moved in `bringForward` once position `i + 1` has
      been visited: nothing at or below `i` has moved, a selected image rose
      by at most one place, and an unselected one never rose. */
  ghost predicate ForwardMoves(sel: seq<Id>, r: seq<PlacedImage>, origin: seq<int>, i: int) {
    && |origin| == |r|
    && -2 <= i <= |r| - 2
    && (forall k :: 0 <= k <= i ==> origin[k] == k)
    && (forall k :: 0 <= k < |r| && r[k].id in sel ==> origin[k] == k || origin[k] == k - 1)
    && (forall k :: 0 <= k < |r| && r[k].id !in sel ==> origin[k] >= k)
  }

  lemma ForwardStep(sel: seq<Id>, r: seq<PlacedImage>, origin: seq<int>, i: nat)
    requires ForwardMoves(sel, r, origin, i)
    ensures r[i].id in sel && r[i + 1].id !in sel ==>
      ForwardMoves(sel, Swap(r, i), Swap(origin, i), i - 1)
    ensures !(r[i].id in sel && r[i + 1].id !in sel) ==>
      ForwardMoves(sel, r, origin, i - 1)
  {
    if r[i].id in sel && r[i + 1].id !in sel {
      var r', o' := Swap(r, i), Swap(origin, i);
      assert origin[i] == i;
      forall k | 0 <= k < |r'| && r'[k].id in sel ensures o'[k] == k || o'[k] == k - 1 {
        if k != i && k != i + 1 { assert r'[k] == r[k] && o'[k] == origin[k]; }
      }
      forall k | 0 <= k < |r'| && r'[k].id !in sel ensures o'[k] >= k {
        if k != i && k != i + 1 { assert r'[k] == r[k] && o'[k] == origin[k]; }
      }
    }
  }

  /** What `bringForward` has achieved once position `i + 1` has been
      visited: every selected image that lay directly below an unselected
      one above position `i` has risen by one place, and an unselected image
      at `i + 1` is still where it started. */
  ghost predicate ForwardProgress(images: seq<PlacedImage>, sel: seq<Id>, r: seq<PlacedImage>, i: int) {
    && |r| == |images|
    && (0 <= i + 1 < |r| && images[i + 1].id !in sel ==> r[i + 1] == images[i + 1])
    && (forall k :: 0 <= k && i < k < |r| - 1 && images[k].id in sel && images[k + 1].id !in sel ==> r[k + 1] == images[k])
  }

  /** Visiting position `i` of `bringForward` completes the rise of the
      image at `i` when it is selected and lies below an unselected one. */
  lemma ForwardProgressStep(images: seq<PlacedImage>, sel: seq<Id>, r: seq<PlacedImage>, i: nat)
    requires ForwardProgress(images, sel, r, i) && i + 1 < |r| && r[i] == images[i]
    ensures r[i].id in sel && r[i + 1].id !in sel ==> ForwardProgress(images, sel, Swap(r, i), i - 1)
    ensures !(r[i].id in sel && r[i + 1].id !in sel) ==> ForwardProgress(images, sel, r, i - 1)
  {
  }

  /** `bringForward`: walking from the top down, every selected image that
      lies directly below an unselected one swaps with it. `origin[k]` is the
      position in `images` that the image now at `k` came from. */
  method BringForward(images: seq<PlacedImage>, sel: seq<Id>) returns (r: seq<PlacedImage>, ghost origin: seq<int>)
    ensures |sel| == 0 ==> r == images
    ensures multiset(r) == multiset(images)
    ensures Filter(r, ImageIn(sel)) == Filter(images, ImageIn(sel))
    ensures Filter(r, ImageNotIn(sel)) == Filter(images, ImageNotIn(sel))
    ensures |origin| == |r| == |images|
    ensures forall k {:trigger origin[k]} :: 0 <= k < |r| ==> 0 <= origin[k] < |images| && r[k] == images[origin[k]]
    ensures forall a, b :: 0 <= a < b < |r| ==> origin[a] != origin[b]
    ensures forall k :: 0 <= k < |r| && r[k].id in sel ==> origin[k] == k || origin[k] == k - 1
    ensures forall k :: 0 <= k < |r| && r[k].id !in sel ==> origin[k] >= k
    ensures forall k :: 0 <= k < |images| - 1 && images[k].id in sel && images[k + 1].id !in sel ==>
      r[k + 1] == images[k]
  {
    r := images;
    origin := Unmoved(|images|);
    UnmovedRearranged(images, sel);
    if |sel| == 0 {
      return;
    }
    var i := |r| - 2;
    while i >= 0
      invariant Rearranged(images, sel, r, origin)
      invariant ForwardMoves(sel, r, origin, i)
      invariant ForwardProgress(images, sel, r, i)
      decreases i + 2
    {
      r, origin := ForwardVisit(images, sel, r, origin, i);
      i := i - 1;
    }
  }

  /** One iteration of `bringForward`'s loop, at position `i`. */
  method ForwardVisit(images: seq<PlacedImage>, sel: seq<Id>, r: seq<PlacedImage>, ghost origin: seq<int>, i: nat)
    returns (r': seq<PlacedImage>, ghost origin': seq<int>)
    requires Rearranged(images, sel, r, origin) && ForwardMoves(sel, r, origin, i)
    requires ForwardProgress(images, sel, r, i)
    ensures Rearranged(images, sel, r', origin') && ForwardMoves(sel, r', origin', i - 1)
    ensures ForwardProgress(images, sel, r', i - 1)
  {
    assert r[i] == images[i] by { assert origin[i] == i; }
    ForwardProgressStep(images, sel, r, i);
    ForwardStep(sel, r, origin, i);
    if r[i].id in sel && r[i + 1].id !in sel {
      SwapRearranges(images, sel, r, origin, i);
      r', origin' := Swap(r, i), Swap(origin, i);
    } else {
      r', origin' := r, origin;
    }
  }

  /** How far images have moved in `sendBackward` before position `i` is
      visited: nothing at or above `i` has moved, a selected image sank by
      at most one place, and an unselected one never sank. */
  ghost predicate BackwardMoves(sel: seq<Id>, r: seq<PlacedImage>, origin: seq<int>, i: int) {
    && |origin| == |r|
    && 1 <= i <= |r| + 1
    && (forall k :: i <= k < |r| ==> origin[k] == k)
    && (forall k :: 0 <= k < |r| && r[k].id in sel ==> origin[k] == k || origin[k] == k + 1)
    && (forall k :: 0 <= k < |r| && r[k].id !in sel ==> origin[k] <= k)
  }

  lemma BackwardStep(sel: seq<Id>, r: seq<PlacedImage>, origin: seq<int>, i: nat)
    requires BackwardMoves(sel, r, origin, i) && i < |r|
    ensures r[i].id in sel && r[i - 1].id !in sel ==>
      BackwardMoves(sel, Swap(r, i - 1), Swap(origin, i - 1), i + 1)
    ensures !(r[i].id in sel && r[i - 1].id !in sel) ==>
      BackwardMoves(sel, r, origin, i + 1)
  {
    if r[i].id in sel && r[i - 1].id !in sel {
      var r', o' := Swap(r, i - 1), Swap(origin, i - 1);
      assert origin[i] == i;
      forall k | 0 <= k < |r'| && r'[k].id in sel ensures o'[k] == k || o'[k] == k + 1 {
        if k != i - 1 && k != i { assert r'[k] == r[k] && o'[k] == origin[k]; }
      }
      forall k | 0 <= k < |r'| && r'[k].id !in sel ensures o'[k] <= k {
        if k != i - 1 && k != i { assert r'[k] == r[k] && o'[k] == origin[k]; }
      }
    }
  }

  /** What `sendBackward` has achieved before position `i` is visited:
      every selected image that lay directly above an unselected one below
      position `i` has sunk by one place, and an unselected image at `i - 1`
      is still where it started. */
  ghost predicate BackwardProgress(images: seq<PlacedImage>, sel: seq<Id>, r: seq<PlacedImage>, i: int) {
    && |r| == |images|
    && (1 <= i <= |r| && images[i - 1].id !in sel ==> r[i - 1] == images[i - 1])
    && (forall k :: 1 <= k < i && k < |r| && images[k].id in sel && images[k - 1].id !in sel ==> r[k - 1] == images[k])
  }

  /** Visiting position `i` of `sendBackward` completes the sinking of the
      image at `i` when it is selected and lies above an unselected one. */
  lemma BackwardProgressStep(images: seq<PlacedImage>, sel: seq<Id>, r: seq<PlacedImage>, i: nat)
    requires BackwardProgress(images, sel, r, i) && 1 <= i < |r| && r[i] == images[i]
    ensures r[i].id in sel && r[i - 1].id !in sel ==> BackwardProgress(images, sel, Swap(r, i - 1), i + 1)
    ensures !(r[i].id in sel && r[i - 1].id !in sel) ==> BackwardProgress(images, sel, r, i + 1)
  {
  }

  /** `sendBackward`: walking from the bottom up, every selected image that
      lies directly above an unselected one swaps with it. `origin[k]` is the
      position in `images` that the image now at `k` came from. */
  method SendBackward(images: seq<PlacedImage>, sel: seq<Id>) returns (r: seq<PlacedImage>, ghost origin: seq<int>)
    ensures |sel| == 0 ==> r == images
    ensures multiset(r) == multiset(images)
    ensures Filter(r, ImageIn(sel)) == Filter(images, ImageIn(sel))
    ensures Filter(r, ImageNotIn(sel)) == Filter(images, ImageNotIn(sel))
    ensures |origin| == |r| == |images|
    ensures forall k {:trigger origin[k]} :: 0 <= k < |r| ==> 0 <= origin[k] < |images| && r[k] == images[origin[k]]
    ensures forall a, b :: 0 <= a < b < |r| ==> origin[a] != origin[b]
    ensures forall k :: 0 <= k < |r| && r[k].id in sel ==> origin[k] == k || origin[k] == k + 1
    ensures forall k :: 0 <= k < |r| && r[k].id !in sel ==> origin[k] <= k
    ensures forall k :: 1 <= k < |images| && images[k].id in sel && images[k - 1].id !in sel ==>
      r[k - 1] == images[k]
  {
    r := images;
    origin := Unmoved(|images|);
    UnmovedRearranged(images, sel);
    if |sel| == 0 {
      return;
    }
    var i := 1;
    while i < |images|
      invariant Rearranged(images, sel, r, origin)
      invariant BackwardMoves(sel, r, origin, i)
      invariant BackwardProgress(images, sel, r, i)
      decreases |images| - i
    {
      r, origin := BackwardVisit(images, sel, r, origin, i);
      i := i + 1;
    }
  }

  /** One iteration of `sendBackward`'s loop, at position `i`. */
  method BackwardVisit(images: seq<PlacedImage>, sel: seq<Id>, r: seq<PlacedImage>, ghost origin: seq<int>, i: nat)
    returns (r': seq<PlacedImage>, ghost origin': seq<int>)
    requires Rearranged(images, sel, r, origin) && BackwardMoves(sel, r, origin, i) && i < |r|
    requires BackwardProgress(images, sel, r, i)
    ensures Rearranged(images, sel, r', origin') && BackwardMoves(sel, r', origin', i + 1)
    ensures BackwardProgress(images, sel, r', i + 1)
  {
    assert r[i] == images[i] by { assert origin[i] == i; }
    BackwardProgressStep(images, sel, r, i);
    BackwardStep(sel, r, origin, i);
    if r[i].id in sel && r[i - 1].id !in sel {
      SwapRearranges(images, sel, r, origin, i - 1);
      r', origin' := Swap(r, i - 1), Swap(origin, i - 1);
    } else {
      r', origin' := r, origin;
    }
  }

  datatype LayerMove = ToFront | ToBack | Forward | Backward

  /** The layer-order commands as the page runs them: nothing happens for an
      empty selection; otherwise the canvas is checkpointed in the history
      and the images are reordered. The selection and the videos are
      untouched. */
  method ApplyLayerMove(e: Editor, m: LayerMove) returns (r: Editor)
    ensures |e.canvas.selectedIds| == 0 ==> r == e
    ensures |e.canvas.selectedIds| > 0 ==>
      && 0 <= r.historyIndex == |r.history| - 1
      && r.history[r.historyIndex] == History.Snapshot(e.canvas)
      && r == e.(canvas := e.canvas.(images := r.canvas.images), history := r.history, historyIndex := r.historyIndex)
    ensures m.ToFront? ==> r.canvas.images == SendToFront(e.canvas.images, e.canvas.selectedIds)
    ensures m.ToBack? ==> r.canvas.images == SendToBack(e.canvas.images, e.canvas.selectedIds)
    ensures m.Forward? ==>
      var images, sel := e.canvas.images, e.canvas.selectedIds;
      && Filter(r.canvas.images, ImageIn(sel)) == Filter(images, ImageIn(sel))
      && Filter(r.canvas.images, ImageNotIn(sel)) == Filter(images, ImageNotIn(sel))
      && |r.canvas.images| == |images|
      && forall k :: 0 <= k < |images| - 1 && images[k].id in sel && images[k + 1].id !in sel ==>
           r.canvas.images[k + 1] == images[k]
    ensures m.Backward? ==>
      var images, sel := e.canvas.images, e.canvas.selectedIds;
      && Filter(r.canvas.images, ImageIn(sel)) == Filter(images, ImageIn(sel))
      && Filter(r.canvas.images, ImageNotIn(sel)) == Filter(images, ImageNotIn(sel))
      && |r.canvas.images| == |images|
      && forall k :: 1 <= k < |images| && images[k].id in sel && images[k - 1].id !in sel ==>
           r.canvas.images[k - 1] == images[k]
    ensures (m.Forward? || m.Backward? || (UniqueImageIds(e.canvas.images) && NoDup(e.canvas.selectedIds))) ==>
      multiset(r.canvas.images) == multiset(e.canvas.images)
  {
    var sel := e.canvas.selectedIds;
    if |sel| == 0 {
      return e;
    }
    var images: seq<PlacedImage>;
    ghost var origin: seq<int>;
    match m {
      case ToFront =>
        images := SendToFront(e.canvas.images, sel);
        if UniqueImageIds(e.canvas.images) && NoDup(sel) {
          SendToFrontBackPermute(e.canvas.images, sel);
        }
      case ToBack =>
        images := SendToBack(e.canvas.images, sel);
        if UniqueImageIds(e.canvas.images) && NoDup(sel) {
          SendToFrontBackPermute(e.canvas.images, sel);
        }
      case Forward =>
        images, origin := BringForward(e.canvas.images, sel);
      case Backward =>
        images, origin := SendBackward(e.canvas.images, sel);
    }
    r := History.CheckpointThenApply(e, e.canvas.(images := images));
  }
}

=== FILE: selection.dfy ===
/** Selection on the editor page (src/app/page.tsx): click selection with
    and without a modifier key, select-all, and rubber-band selection driven
    by the stage's mouse-down, mouse-move and mouse-up handlers (which also
    start, continue and stop middle-button panning). */
module Selection {
  import opened CanvasTypes
  import opened Seqs
  import opened Editor
  import VP = Viewport

  function OtherThan(id: Id): Id -> bool {
    (x: Id) => x != id
  }

  /** `handleSelect`: with shift, meta or ctrl held, toggle `id` in the
      selection; otherwise select `id` alone. */
  function HandleSelect(sel: seq<Id>, id: Id, modifier: bool): (r: seq<Id>)
    ensures !modifier ==> r == [id]
    ensures modifier ==> (id in r <==> id !in sel)
    ensures modifier ==> Filter(r, OtherThan(id)) == Filter(sel, OtherThan(id))
    ensures modifier && id !in sel ==> |r| == |sel| + 1 && r[|r| - 1] == id
  {
    if modifier then
      if id in sel then
        FilterTwice(sel, OtherThan(id));
        Filter(sel, OtherThan(id))
      else
        FilterConcat(sel, [id], OtherThan(id));
        assert Filter([id], OtherThan(id)) == [] by { assert [id][1..] == []; }
        sel + [id]
    else [id]
  }

  /** Toggling an unselected id twice gives back the selection unchanged. */
  lemma ToggleTwiceRestores(sel: seq<Id>, id: Id)
    requires id !in sel
    ensures HandleSelect(HandleSelect(sel, id, true), id, true) == sel
  {
    var once := sel + [id];
    assert id in once;
    FilterConcat(sel, [id], OtherThan(id));
    assert Filter([id], OtherThan(id)) == [] by { assert [id][1..] == []; }
    FilterKeepsAll(sel, OtherThan(id));
  }

  /** Ctrl/Cmd-A: select every image (videos are not included). */
  function SelectAll(images: seq<PlacedImage>): (r: seq<Id>)
    ensures |r| == |images|
    ensures forall k :: 0 <= k < |images| ==> r[k] == images[k].id
    ensures forall id :: id in r <==> exists k :: 0 <= k < |images| && images[k].id == id
  {
    ImageIds(images)
  }

  /** The rubber-band box with non-negative extent: `Math.min` for the
      corner, `Math.abs` for the size. */
  function NormalizeBox(b: SelectionBox): (r: Rect)
    ensures r.width >= 0.0 && r.height >= 0.0
    ensures {r.x, r.x + r.width} == {b.startX, b.endX}
    ensures {r.y, r.y + r.height} == {b.startY, b.endY}
  {
    Rect(Min(b.startX, b.endX), Min(b.startY, b.endY),
         Abs(b.endX - b.startX), Abs(b.endY - b.startY))
  }

  /** The page's overlap test: the item is not entirely left of, right of,
      above or below the box. Touching edges count as overlap. */
  predicate Intersects(item: Rect, box: Rect) {
    !(item.x + item.width < box.x
      || item.x > box.x + box.width
      || item.y + item.height < box.y
      || item.y > box.y + box.height)
  }

  predicate InRect(p: Point, r: Rect) {
    r.x <= p.x <= r.x + r.width && r.y <= p.y <= r.y + r.height
  }

  /** For rectangles of non-negative size, the overlap test holds exactly
      when the two closed rectangles share a point. */
  lemma IntersectsIffCommonPoint(item: Rect, box: Rect)
    requires item.width >= 0.0 && item.height >= 0.0
    requires box.width >= 0.0 && box.height >= 0.0
    ensures Intersects(item, box) <==> exists p :: InRect(p, item) && InRect(p, box)
  {
    if Intersects(item, box) {
      var p := Point(Max(item.x, box.x), Max(item.y, box.y));
      assert InRect(p, item) && InRect(p, box);
    }
  }

  function ImageRect(img: PlacedImage): Rect {
    Rect(img.x, img.y, img.width, img.height)
  }

  function VideoRect(vid: PlacedVideo): Rect {
    Rect(vid.x, vid.y, vid.width, vid.height)
  }

  function ImageHit(box: Rect): PlacedImage -> bool {
    (img: PlacedImage) => Intersects(ImageRect(img), box)
  }

  function VideoHit(box: Rect): PlacedVideo -> bool {
    (vid: PlacedVideo) => Intersects(VideoRect(vid), box)
  }

  /** Ids of the images and then the videos that overlap the box, each list
      in array order. */
  function BoxHits(images: seq<PlacedImage>, videos: seq<PlacedVideo>, box: Rect): (r: seq<Id>)
    ensures forall id :: id in r <==>
      (exists img :: img in images && img.id == id && Intersects(ImageRect(img), box))
      || (exists vid :: vid in videos && vid.id == id && Intersects(VideoRect(vid), box))
    ensures var n := |Filter(images, ImageHit(box))|;
      && n <= |r|
      && r[..n] == ImageIds(Filter(images, ImageHit(box)))
      && r[n..] == VideoIds(Filter(videos, VideoHit(box)))
  {
    var hitImages := Filter(images, ImageHit(box));
    var hitVideos := Filter(videos, VideoHit(box));
    ImageIdsMembership(hitImages);
    VideoIdsMembership(hitVideos);
    ImageIds(hitImages) + VideoIds(hitVideos)
  }

  datatype MouseEvent = MouseEvent(
    button: int,          // 0 left, 1 middle, 2 right
    onEmptyStage: bool,   // the target is the stage itself
    inCropOverlay: bool,  // the target lies inside the crop overlay
    pointer: Option<Point>,
    client: Point)

  /** `handleMouseDown`: the middle button starts panning; a click outside
      the crop overlay leaves crop mode; a left click on empty canvas starts
      a rubber band at the pointer and clears the selection. */
  function MouseDown(e: Editor, ev: MouseEvent): (r: Editor)
    requires ev.pointer.Some? ==> e.viewport.scale != 0.0
    ensures r.canvas.images == e.canvas.images && r.canvas.videos == e.canvas.videos
    ensures r.viewport == e.viewport && r.history == e.history
    ensures ev.button == 1 ==> r == e.(isPanningCanvas := true, lastPanPosition := ev.client)
    ensures ev.button != 1 && e.croppingImageId.Some? && !ev.inCropOverlay ==>
      r == e.(croppingImageId := None)
    ensures ev.button == 0 && ev.onEmptyStage && e.croppingImageId.None? && ev.pointer.Some? ==>
      var p := VP.ScreenToCanvas(e.viewport, ev.pointer.value);
      r == e.(isSelecting := true,
              selectionBox := SelectionBox(p.x, p.y, p.x, p.y, true),
              canvas := e.canvas.(selectedIds := []))
    ensures
      (&& ev.button != 1
       && !(e.croppingImageId.Some? && !ev.inCropOverlay)
       && !(ev.button == 0 && ev.onEmptyStage && e.croppingImageId.None? && ev.pointer.Some?))
      ==> r == e
  {
    if ev.button == 1 then
      e.(isPanningCanvas := true, lastPanPosition := ev.client)
    else if e.croppingImageId.Some? && !ev.inCropOverlay then
      e.(croppingImageId := None)
    else if ev.onEmptyStage && e.croppingImageId.None? && ev.button == 0 && ev.pointer.Some? then
      var p := VP.ScreenToCanvas(e.viewport, ev.pointer.value);
      e.(isSelecting := true,
         selectionBox := SelectionBox(p.x, p.y, p.x, p.y, true),
         canvas := e.canvas.(selectedIds := []))
    else e
  }

  /** `handleMouseMove`: while panning, follow the pointer; while selecting,
      move the box's free corner to the pointer. */
  function MouseMove(e: Editor, ev: MouseEvent): (r: Editor)
    requires ev.pointer.Some? ==> e.viewport.scale != 0.0
    ensures r.canvas == e.canvas && r.history == e.history
    ensures e.isPanningCanvas ==>
      r == e.(viewport := VP.PanBy(e.viewport, ev.client.x - e.lastPanPosition.x, ev.client.y - e.lastPanPosition.y),
              lastPanPosition := ev.client)
    ensures !e.isPanningCanvas ==> r.viewport == e.viewport
    ensures !e.isPanningCanvas && e.isSelecting && ev.pointer.Some? ==>
      var p := VP.ScreenToCanvas(e.viewport, ev.pointer.value);
      r == e.(selectionBox := e.selectionBox.(endX := p.x, endY := p.y))
    ensures !e.isPanningCanvas && (!e.isSelecting || ev.pointer.None?) ==> r == e
  {
    if e.isPanningCanvas then
      e.(viewport := VP.PanBy(e.viewport, ev.client.x - e.lastPanPosition.x, ev.client.y - e.lastPanPosition.y),
         lastPanPosition := ev.client)
    else if !e.isSelecting then e
    else if ev.pointer.Some? then
      var p := VP.ScreenToCanvas(e.viewport, ev.pointer.value);
      e.(selectionBox := e.selectionBox.(endX := p.x, endY := p.y))
    else e
  }

  /** Whether a rubber band of this extent selects anything at all. */
  predicate BigEnough(box: Rect) {
    box.width > 5.0 || box.height > 5.0
  }

  /** `handleMouseUp`: stop panning, or finish the rubber band. A box wider
      or taller than 5 that overlaps at least one item replaces the
      selection with the overlapped items; otherwise the selection stays as
      mouse-down left it. The box is hidden either way. */
  function MouseUp(e: Editor): (r: Editor)
    ensures e.isPanningCanvas ==> r == e.(isPanningCanvas := false)
    ensures !e.isPanningCanvas && !e.isSelecting ==> r == e
    ensures !e.isPanningCanvas && e.isSelecting ==>
      r == e.(canvas := e.canvas.(selectedIds := r.canvas.selectedIds),
              isSelecting := false,
              selectionBox := e.selectionBox.(visible := false))
    ensures r.canvas.selectedIds != e.canvas.selectedIds ==>
      var box := NormalizeBox(e.selectionBox);
      && BigEnough(box)
      && r.canvas.selectedIds == BoxHits(e.canvas.images, e.canvas.videos, box)
      && |r.canvas.selectedIds| > 0
    ensures !e.isPanningCanvas && e.isSelecting ==>
      var box := NormalizeBox(e.selectionBox);
      var hits := BoxHits(e.canvas.images, e.canvas.videos, box);
      r.canvas.selectedIds == if BigEnough(box) && |hits| > 0 then hits else e.canvas.selectedIds
  {
    if e.isPanningCanvas then
      e.(isPanningCanvas := false)
    else if !e.isSelecting then e
    else
      var box := NormalizeBox(e.selectionBox);
      var sel :=
        if BigEnough(box) then
          var hits := BoxHits(e.canvas.images, e.canvas.videos, box);
          if |hits| > 0 then hits else e.canvas.selectedIds
        else e.canvas.selectedIds;
      e.(canvas := e.canvas.(selectedIds := sel),
         isSelecting := false,
         selectionBox := e.selectionBox.(visible := false))
  }

  /** A left click on empty canvas with no drag deselects everything. */
  lemma ClickOnEmptyClearsSelection(e: Editor, down: MouseEvent)
    requires e.viewport.scale != 0.0 && !e.isPanningCanvas && e.croppingImageId.None?
    requires down.button == 0 && down.onEmptyStage && down.pointer.Some?
    ensures MouseUp(MouseDown(e, down)).canvas.selectedIds == []
    ensures !MouseUp(MouseDown(e, down)).selectionBox.visible
  {
  }

  /** A full rubber-band gesture (press on empty canvas, move, release)
      selects exactly the items overlapping the box between the two pointer
      positions, provided the box is wider or taller than 5; a smaller box
      leaves nothing selected. */
  lemma RubberBandSelectsOverlapped(e: Editor, down: MouseEvent, move: MouseEvent)
    requires e.viewport.scale != 0.0 && !e.isPanningCanvas && e.croppingImageId.None?
    requires down.button == 0 && down.onEmptyStage && down.pointer.Some?
    requires move.pointer.Some?
    ensures
      var r := MouseUp(MouseMove(MouseDown(e, down), move));
      var a := VP.ScreenToCanvas(e.viewport, down.pointer.value);
      var b := VP.ScreenToCanvas(e.viewport, move.pointer.value);
      var box := NormalizeBox(SelectionBox(a.x, a.y, b.x, b.y, true));
      && !r.selectionBox.visible
      && !r.isSelecting
      && (!BigEnough(box) ==> r.canvas.selectedIds == [])
      && (BigEnough(box) ==> r.canvas.selectedIds == BoxHits(e.canvas.images, e.canvas.videos, box))
      && (BigEnough(box) ==> forall id :: id in r.canvas.selectedIds <==>
            (exists img :: img in e.canvas.images && img.id == id && Intersects(ImageRect(img), box))
            || (exists vid :: vid in e.canvas.videos && vid.id == id && Intersects(VideoRect(vid), box)))
  {
    var d := MouseDown(e, down);
    var m := MouseMove(d, move);
    assert m.canvas.selectedIds == [];
    var a := VP.ScreenToCanvas(e.viewport, down.pointer.value);
    var b := VP.ScreenToCanvas(e.viewport, move.pointer.value);
    assert m.selectionBox == SelectionBox(a.x, a.y, b.x, b.y, true);
  }
}

=== FILE: seqs.dfy ===
/** Sequence helpers shared by the editor model: `Array.prototype.filter`,
    distinctness, and the swap of two neighbours used by the layer moves. */
module Seqs {

  /** The elements of `s` that satisfy `p`, in their original order. */
  function Filter<T(!new)>(s: seq<T>, p: T -> bool): (r: seq<T>)
    ensures |r| <= |s|
    ensures forall i :: 0 <= i < |r| ==> p(r[i])
    ensures forall x :: x in r <==> x in s && p(x)
  {
    if |s| == 0 then []
    else
      var rest := Filter(s[1..], p);
      assert s == [s[0]] + s[1..];
      if p(s[0]) then [s[0]] + rest else rest
  }

  /** Filtering keeps every copy of a kept element and drops every copy of
      the others. */
  lemma {:induction false} FilterMultiset<T(!new)>(s: seq<T>, p: T -> bool)
    ensures forall x :: multiset(Filter(s, p))[x] == if p(x) then multiset(s)[x] else 0
  {
    if |s| > 0 {
      FilterMultiset(s[1..], p);
      assert s == [s[0]] + s[1..];
    }
  }

  /** Filtering distributes over concatenation. */
  lemma {:induction false} FilterConcat<T(!new)>(a: seq<T>, b: seq<T>, p: T -> bool)
    ensures Filter(a + b, p) == Filter(a, p) + Filter(b, p)
  {
    if |a| == 0 {
      assert a + b == b;
    } else {
      assert (a + b)[1..] == a[1..] + b;
      FilterConcat(a[1..], b, p);
    }
  }

  /** A filter that keeps every element is the identity. */
  lemma {:induction false} FilterKeepsAll<T(!new)>(s: seq<T>, p: T -> bool)
    requires forall i :: 0 <= i < |s| ==> p(s[i])
    ensures Filter(s, p) == s
  {
    if |s| > 0 {
      FilterKeepsAll(s[1..], p);
      assert s == [s[0]] + s[1..];
    }
  }

  /** A filter that keeps no element yields the empty sequence. */
  lemma {:induction false} FilterDropsAll<T(!new)>(s: seq<T>, p: T -> bool)
    requires forall i :: 0 <= i < |s| ==> !p(s[i])
    ensures Filter(s, p) == []
  {
    if |s| > 0 {
      FilterDropsAll(s[1..], p);
    }
  }

  /** Filtering a block of kept elements joined to a block of dropped ones,
      in either order, yields the kept block. */
  lemma FilterOfSplit<T(!new)>(a: seq<T>, b: seq<T>, p: T -> bool)
    requires forall i :: 0 <= i < |a| ==> p(a[i])
    requires forall i :: 0 <= i < |b| ==> !p(b[i])
    ensures Filter(a + b, p) == a && Filter(b + a, p) == a
  {
    FilterConcat(a, b, p);
    FilterConcat(b, a, p);
    FilterKeepsAll(a, p);
    FilterDropsAll(b, p);
  }

  /** Filtering twice by the same predicate is filtering once. */
  lemma {:induction false} FilterTwice<T(!new)>(s: seq<T>, p: T -> bool)
    ensures Filter(Filter(s, p), p) == Filter(s, p)
  {
    if |s| > 0 {
      FilterTwice(s[1..], p);
      if p(s[0]) {
        assert ([s[0]] + Filter(s[1..], p))[1..] == Filter(s[1..], p);
      }
    }
  }

  predicate NoDup<T(==)>(s: seq<T>) {
    forall i, j :: 0 <= i < j < |s| ==> s[i] != s[j]
  }

  /** In a sequence without duplicates every element occurs exactly once. */
  lemma {:induction false} NoDupCount<T>(s: seq<T>, x: T)
    requires NoDup(s)
    ensures multiset(s)[x] == if x in s then 1 else 0
  {
    if |s| > 0 {
      assert s == [s[0]] + s[1..];
      assert NoDup(s[1..]) by {
        forall i, j | 0 <= i < j < |s[1..]| ensures s[1..][i] != s[1..][j] {
          assert s[1..][i] == s[i + 1] && s[1..][j] == s[j + 1];
        }
      }
      NoDupCount(s[1..], x);
      if x == s[0] {
        assert x !in s[1..] by {
          forall k | 0 <= k < |s[1..]| ensures s[1..][k] != x {
            assert s[1..][k] == s[k + 1];
          }
        }
      }
    }
  }

  /** Two duplicate-free sequences with the same elements are permutations
      of each other. */
  lemma SameElementsPermutation<T>(a: seq<T>, b: seq<T>)
    requires NoDup(a) && NoDup(b)
    requires forall x :: x in a <==> x in b
    ensures multiset(a) == multiset(b)
  {
    forall x ensures multiset(a)[x] == multiset(b)[x] {
      NoDupCount(a, x);
      NoDupCount(b, x);
    }
  }

  /** `s` with the neighbours at `i` and `i + 1` exchanged. */
  function Swap<T>(s: seq<T>, i: nat): (r: seq<T>)
    requires i + 1 < |s|
    ensures |r| == |s|
    ensures r[i] == s[i + 1] && r[i + 1] == s[i]
    ensures forall k :: 0 <= k < |s| && k != i && k != i + 1 ==> r[k] == s[k]
    ensures multiset(r) == multiset(s)
  {
    var r := s[i := s[i + 1]][i + 1 := s[i]];
    assert r == s[..i] + [s[i + 1], s[i]] + s[i + 2..];
    assert s == s[..i] + [s[i], s[i + 1]] + s[i + 2..];
    r
  }

  /** `s` and `Swap(s, i)` around the exchanged pair. */
  lemma SwapSplit<T>(s: seq<T>, i: nat)
    requires i + 1 < |s|
    ensures s == s[..i] + ([s[i], s[i + 1]] + s[i + 2..])
    ensures Swap(s, i) == s[..i] + ([s[i + 1], s[i]] + s[i + 2..])
  {
    var pre, post := s[..i], s[i + 2..];
    forall k | 0 <= k < |s| ensures s[k] == (pre + ([s[i], s[i + 1]] + post))[k] {
      if k == i + 1 { assert (pre + ([s[i], s[i + 1]] + post))[k] == s[i + 1]; }
    }
    forall k | 0 <= k < |s| ensures Swap(s, i)[k] == (pre + ([s[i + 1], s[i]] + post))[k] {
      if k == i + 1 { assert (pre + ([s[i + 1], s[i]] + post))[k] == s[i]; }
    }
  }

  /** Exchanging two neighbours of which exactly one satisfies `p` does not
      change the filtered sequence. */
  lemma SwapKeepsFilter<T(!new)>(s: seq<T>, i: nat, p: T -> bool)
    requires i + 1 < |s|
    requires p(s[i]) != p(s[i + 1])
    ensures Filter(Swap(s, i), p) == Filter(s, p)
  {
    var pre, a, b, post := s[..i], s[i], s[i + 1], s[i + 2..];
    SwapSplit(s, i);
    FilterConcat(pre, [b, a] + post, p);
    FilterConcat([b, a], post, p);
    FilterPairSwap(a, b, p);
    FilterConcat([a, b], post, p);
    FilterConcat(pre, [a, b] + post, p);
  }

  lemma FilterPairSwap<T(!new)>(a: T, b: T, p: T -> bool)
    requires p(a) != p(b)
    ensures Filter([a, b], p) == Filter([b, a], p)
  {
    assert [a, b][1..] == [b];
    assert [b, a][1..] == [a];
    assert [b][1..] == [] && [a][1..] == [];
  }
}

=== FILE: viewport.dfy ===
/** Viewport arithmetic of the editor page (src/app/page.tsx): wheel zoom
    about the pointer, wheel and middle-button panning, and the keyboard zoom
    about the centre of the canvas. The zoom scale is kept in [0.1, 5]. */
module Viewport {
  import opened CanvasTypes

  const MinScale: real := 0.1
  const MaxScale: real := 5.0

  /** Factor of one wheel zoom step and of one keyboard zoom step. */
  const WheelStep: real := 1.01
  const KeyStep: real := 1.2

  predicate InRange(v: Viewport) {
    MinScale <= v.scale <= MaxScale
  }

  /** Where canvas point `q` is drawn on the screen. */
  function CanvasToScreen(v: Viewport, q: Point): Point {
    Point(q.x * v.scale + v.x, q.y * v.scale + v.y)
  }

  /** The canvas point under screen point `p`. */
  function ScreenToCanvas(v: Viewport, p: Point): (q: Point)
    requires v.scale != 0.0
    ensures CanvasToScreen(v, q) == p
  {
    DivideThenScale(p.x - v.x, v.scale);
    DivideThenScale(p.y - v.y, v.scale);
    Point((p.x - v.x) / v.scale, (p.y - v.y) / v.scale)
  }

  lemma DivideThenScale(a: real, s: real)
    requires s != 0.0
    ensures a / s * s == a
  {
  }

  lemma CanvasScreenRoundTrip(v: Viewport, q: Point)
    requires v.scale != 0.0
    ensures ScreenToCanvas(v, CanvasToScreen(v, q)) == q
  {
  }

  /** `Math.max(0.1, Math.min(5, s))` */
  function ClampScale(s: real): (r: real)
    ensures MinScale <= r <= MaxScale
    ensures MinScale <= s <= MaxScale ==> r == s
    ensures s < MinScale ==> r == MinScale
    ensures s > MaxScale ==> r == MaxScale
  {
    Max(MinScale, Min(MaxScale, s))
  }

  /** The viewport at scale `s` that keeps the canvas point under `anchor`
      on the same screen point. */
  function ZoomAbout(v: Viewport, anchor: Point, s: real): (r: Viewport)
    requires v.scale != 0.0
    ensures r.scale == s
    ensures CanvasToScreen(r, ScreenToCanvas(v, anchor)) == anchor
  {
    var m := ScreenToCanvas(v, anchor);
    Viewport(anchor.x - m.x * s, anchor.y - m.y * s, s)
  }

  /** How many times `for (let i = 0; i < steps; i++)` runs. */
  function LoopCount(steps: real): (n: nat)
    ensures steps <= 0.0 ==> n == 0
    ensures steps > 0.0 ==> (n - 1) as real < steps <= n as real
  {
    if steps <= 0.0 then 0
    else if steps.Floor as real == steps then steps.Floor
    else steps.Floor + 1
  }

  /** `n` wheel steps applied to scale `s`: each multiplies by 1.01 when
      zooming in and divides by 1.01 when zooming out. */
  function Repeat(s: real, zoomIn: bool, n: nat): (r: real)
    requires s > 0.0
    ensures r > 0.0
    ensures zoomIn ==> r >= s
    ensures !zoomIn ==> r <= s
    decreases n
  {
    if n == 0 then s
    else Repeat(if zoomIn then s * WheelStep else s / WheelStep, zoomIn, n - 1)
  }

  /** The scale a ctrl-wheel (trackpad pinch) event produces: up to ten
      steps, in by a negative `deltaY` and out by a positive one, clamped. */
  function WheelScale(s: real, deltaY: real): (r: real)
    requires s > 0.0
    ensures MinScale <= r <= MaxScale
    ensures MinScale <= s <= MaxScale && deltaY > 0.0 ==> r <= s
    ensures MinScale <= s <= MaxScale && deltaY <= 0.0 ==> r >= s
  {
    ClampScale(Repeat(s, !(deltaY > 0.0), LoopCount(Min(Abs(deltaY), 10.0))))
  }

  datatype WheelEvent = WheelEvent(
    ctrlKey: bool,
    shiftKey: bool,
    deltaX: real,
    deltaY: real,
    pointer: Option<Point>)

  /** Translate the viewport by a screen offset. */
  function PanBy(v: Viewport, dx: real, dy: real): (r: Viewport)
    ensures r.scale == v.scale
    ensures forall q :: CanvasToScreen(r, q) == Point(CanvasToScreen(v, q).x + dx, CanvasToScreen(v, q).y + dy)
  {
    Viewport(v.x + dx, v.y + dy, v.scale)
  }

  /** `handleWheel`: with ctrl held (a trackpad pinch) zoom about the
      pointer; otherwise pan, shift turning vertical scrolling horizontal. */
  function HandleWheel(v: Viewport, e: WheelEvent): (r: Viewport)
    requires e.ctrlKey ==> v.scale > 0.0
    ensures e.ctrlKey && e.pointer.None? ==> r == v
    ensures e.ctrlKey && e.pointer.Some? ==> InRange(r)
    ensures e.ctrlKey && e.pointer.Some? ==>
      CanvasToScreen(r, ScreenToCanvas(v, e.pointer.value)) == e.pointer.value
    ensures e.ctrlKey && InRange(v) && e.deltaY > 0.0 ==> r.scale <= v.scale
    ensures e.ctrlKey && InRange(v) && e.deltaY < 0.0 ==> r.scale >= v.scale
    ensures !e.ctrlKey ==> r.scale == v.scale
    ensures !e.ctrlKey && e.shiftKey ==> r.x == v.x - e.deltaY && r.y == v.y
    ensures !e.ctrlKey && !e.shiftKey ==> r.x == v.x - e.deltaX && r.y == v.y - e.deltaY
  {
    if e.ctrlKey then
      if e.pointer.None? then v
      else ZoomAbout(v, e.pointer.value, WheelScale(v.scale, e.deltaY))
    else
      var dx := if e.shiftKey then e.deltaY else e.deltaX;
      var dy := if e.shiftKey then 0.0 else e.deltaY;
      PanBy(v, -dx, -dy)
  }

  /** The centre of a canvas of the given size, in screen coordinates. */
  function Centre(canvasSize: Size): Point {
    Point(canvasSize.width / 2.0, canvasSize.height / 2.0)
  }

  /** "+" / "=": zoom in by 1.2 about the centre, capped at 5. */
  function KeyZoomIn(v: Viewport, canvasSize: Size): (r: Viewport)
    requires v.scale != 0.0
    ensures r.scale == Min(MaxScale, v.scale * KeyStep)
    ensures r.scale <= MaxScale
    ensures InRange(v) ==> InRange(r) && r.scale >= v.scale
    ensures CanvasToScreen(r, ScreenToCanvas(v, Centre(canvasSize))) == Centre(canvasSize)
  {
    ZoomAbout(v, Centre(canvasSize), Min(MaxScale, v.scale * KeyStep))
  }

  /** "-": zoom out by 1.2 about the centre, floored at 0.1. */
  function KeyZoomOut(v: Viewport, canvasSize: Size): (r: Viewport)
    requires v.scale != 0.0
    ensures r.scale == Max(MinScale, v.scale / KeyStep)
    ensures r.scale >= MinScale
    ensures InRange(v) ==> InRange(r) && r.scale <= v.scale
    ensures CanvasToScreen(r, ScreenToCanvas(v, Centre(canvasSize))) == Centre(canvasSize)
  {
    ZoomAbout(v, Centre(canvasSize), Max(MinScale, v.scale / KeyStep))
  }

  /** Ctrl/Cmd-0: back to the identity transform. */
  function ResetZoom(): (r: Viewport)
    ensures InRange(r)
    ensures forall p :: ScreenToCanvas(r, p) == p
  {
    Viewport(0.0, 0.0, 1.0)
  }

  /** The canvas point under a fixed anchor survives a zoom about it. */
  lemma ZoomAboutKeepsAnchorPoint(v: Viewport, anchor: Point, s: real)
    requires v.scale != 0.0 && s != 0.0
    ensures ScreenToCanvas(ZoomAbout(v, anchor, s), anchor) == ScreenToCanvas(v, anchor)
  {
    var r := ZoomAbout(v, anchor, s);
    var m := ScreenToCanvas(v, anchor);
    CanvasScreenRoundTrip(r, m);
  }

  /** A keyboard zoom in that the cap does not cut is undone exactly by a
      keyboard zoom out. */
  lemma KeyZoomOutUndoesZoomIn(v: Viewport, canvasSize: Size)
    requires InRange(v) && v.scale * KeyStep <= MaxScale
    ensures KeyZoomOut(KeyZoomIn(v, canvasSize), canvasSize) == v
  {
    var c := Centre(canvasSize);
    var w := KeyZoomIn(v, canvasSize);
    assert w.scale == v.scale * KeyStep;
    assert w.scale / KeyStep == v.scale;
    ZoomAboutKeepsAnchorPoint(v, c, w.scale);
    var m := ScreenToCanvas(v, c);
    assert ScreenToCanvas(w, c) == m;
    var r := KeyZoomOut(w, canvasSize);
    assert r == Viewport(c.x - m.x * v.scale, c.y - m.y * v.scale, v.scale);
    assert c.x - m.x * v.scale == v.x;
    assert c.y - m.y * v.scale == v.y;
  }

  /** Panning by a screen offset: the canvas point now under `p` is the one
      that was under `p` moved back by the offset. */
  lemma PanShiftsContent(v: Viewport, dx: real, dy: real, p: Point)
    requires v.scale != 0.0
    ensures ScreenToCanvas(PanBy(v, dx, dy), p) == ScreenToCanvas(v, Point(p.x - dx, p.y - dy))
  {
  }
}
